=== FILE: README.md ===
# Fraud-audit dashboard core, modelled in Dafny

This project models the decision logic of a React/TypeScript fraud-audit
dashboard. That logic covers:

- the role/permission table and the route guard built on it;
- the route table of the application;
- the in-memory user and case store;
- the key store and encrypt/decrypt pipeline over browser storage and WebCrypto;
- the case search, the file-upload checks and the CSV template generator;
- the list logic of four views: the notification bell, the case tabs, the
  transaction matching table and the fraud alerts page.

Every operation is a pure function over immutable datatypes. State changes
(React `setState`, `localStorage`) become functions from the old state to the
new one. Browser primitives (AES-GCM, key import, UTF-8 encoding) are function
values of a `Platform` record. Random bytes are parameters. Properties that
need the primitives to behave take a soundness predicate as a hypothesis; no
axiom is assumed.

Modules, one per source file plus three shared helpers:

| module | models |
|---|---|
| `Options` | optional values, results, JavaScript truthiness of optional strings and booleans |
| `Seqs` | `filter`, `map`, `find`, `filter(...).length`, order-preserving subsequences |
| `Text` | `toLowerCase` (ASCII), `trim`, `includes`, `endsWith`, `split`/`join`, decimal `toString` |
| `RolePermissions` | `src/utils/rolePermissions.ts` |
| `ProtectedRoute` | `src/components/auth/ProtectedRoute.tsx` |
| `AppRoutes` | `src/App.tsx` |
| `UserTypes`, `UserContext` | `src/types/user.ts`, `src/contexts/UserContext.tsx` |
| `Crypto` | `src/utils/crypto.ts` |
| `SearchUtils` | `src/utils/searchUtils.ts` |
| `FileUpload` | `src/components/upload/FileUpload.tsx` |
| `TemplateGenerator` | `src/utils/templateGenerator.ts` |
| `NotificationsDropdown` | `src/components/layout/NotificationsDropdown.tsx` |
| `CaseTabs` | `src/components/cases/CaseTabs.tsx` |
| `TransactionMatching` | `src/components/transactions/TransactionMatchingTable.tsx` |
| `AlertsPage` | `src/pages/Alerts.tsx` |

## Model

| member | source | states |
|---|---|---|
| RolePermissions.CheckPermission | src/utils/rolePermissions.ts:62-67 | Administrator holds every permission; read and export are granted to every role; create and delete are granted to Administrator alone; Executive holds exactly read and export |
| RolePermissions.GrantedSets | src/utils/rolePermissions.ts:4-60 | the granted set of each of the five roles, row by row, as the table lists them |
| RolePermissions.Table | src/utils/rolePermissions.ts:4-60 | column by column: read and export for every role; create and delete for Administrator alone; update, import, assignTasks, reviewAlerts and handleCases for exactly the roles the table lists |
| RolePermissions.GrantedOrdering | src/utils/rolePermissions.ts:5-48 | every role's grants are within Administrator's; Executive's are within every role's; Specialist's are within Manager's |
| RolePermissions.CheckPermissionExamples | src/utils/rolePermissions.ts:27-59 | Manager may import but not delete; Analyst may handle cases but not delete; Executive may not create |
| RolePermissions.EnumerationsComplete | src/utils/rolePermissions.ts:4-60 | every role and every permission key appears in the table |
| RolePermissions.IsAdmin | src/utils/rolePermissions.ts:73-75 | the super-admin address passes the approved-suffix check |
| RolePermissions.IsValidEmail | src/utils/rolePermissions.ts:69-71 | an address passes exactly when it is some text followed by `@trialcorp.com` |
| RolePermissions.EmailCheckExamples | src/utils/rolePermissions.ts:69-75 | the suffix check is literal and case-sensitive (upper-case and `.co.zw` addresses fail); the admin check is exact equality |
| ProtectedRoute.Decide | src/components/auth/ProtectedRoute.tsx:29-75 | renders iff a user is logged in, the role check passes and the permission check passes; otherwise redirects home, naming the first check that failed (authentication, then role, then permission) |
| ProtectedRoute.NoUserIsRedirected | src/components/auth/ProtectedRoute.tsx:29-36 | with nobody logged in every guard redirects, whatever it requires |
| ProtectedRoute.AdministratorPassesPermissionGuards | src/components/auth/ProtectedRoute.tsx:50-75 | an Administrator passes any guard with an absent or empty role list |
| ProtectedRoute.UnlistedRoleIsDenied | src/components/auth/ProtectedRoute.tsx:50-60 | a non-empty role list that omits the role denies, before any permission is looked at |
| ProtectedRoute.RoleNamesAreCaseSensitive | src/components/auth/ProtectedRoute.tsx:50 | role names are compared as exact strings |
| ProtectedRoute.RoleNamesAreNonEmpty | src/components/auth/ProtectedRoute.tsx:38-47 | every role has a non-empty name, so the "verifying permissions" branch cannot be reached |
| AppRoutes.SettingsAccess | src/App.tsx:78-82 | settings admits exactly Administrator |
| AppRoutes.UploadAccess | src/App.tsx:34-38 | upload admits exactly Administrator, Manager and Specialist |
| AppRoutes.CasesAccess | src/App.tsx:58-62 | cases admits exactly Administrator and Analyst |
| AppRoutes.AlertsAccess | src/App.tsx:64-68 | alerts admits exactly Administrator, Manager and Specialist |
| AppRoutes.EveryRoleReadsHistory | src/App.tsx:52-56 | transaction history (guarded by `read`) admits every role |
| AppRoutes.EveryRoleReadsReports | src/App.tsx:70-74 | reports (guarded by `export`) admit every role |
| AppRoutes.MatchingAccess | src/App.tsx:40-44 | matching admits exactly Administrator, Specialist and Analyst, although Manager and Executive hold `read` |
| AppRoutes.ReconciliationAccess | src/App.tsx:46-50 | reconciliation admits exactly Administrator, Manager and Specialist |
| AppRoutes.UnguardedRoutes | src/App.tsx:32-84 | exactly home, user management and the not-found page carry no guard and are shown to anyone; every guarded route turns away a visitor who is not logged in |
| AppRoutes.GuardOf | src/App.tsx:32-84 | exactly home, user management and the not-found page are unguarded; every guard uses either a role list or a permission, never both; every role list is non-empty and names Administrator |
| AppRoutes.AdministratorReachesEverything | src/App.tsx:32-84 | an Administrator gets every route |
| AppRoutes.PathsDistinct | src/App.tsx:32-84 | the declared paths are pairwise distinct |
| UserContext.GenerateEmail | src/contexts/UserContext.tsx:114-118 | the address ends in `@trialcorp.co.zw`; it starts with the lower-cased first initial (when there is one), followed by the lower-cased surname just before the domain |
| UserContext.GeneratedEmailIsNeverValid | src/contexts/UserContext.tsx:114-118 | a generated address never passes the approved-suffix check |
| UserContext.GenerateEmailIgnoresCase | src/contexts/UserContext.tsx:115-116 | the generated address does not depend on the case of the names |
| UserContext.MaxId | src/contexts/UserContext.tsx:141 | the result is at least 0 and every id; it is 0 or some user's id |
| UserContext.AddUser | src/contexts/UserContext.tsx:120-149 | refused iff a name is missing or the generated address is already taken; otherwise exactly one user is appended, with the generated address, the name "first last", id max+1 above every existing id, and the given names, role, status and cases |
| UserContext.AddUserKeepsUniqueness | src/contexts/UserContext.tsx:125-144 | unique ids and unique addresses stay unique |
| UserContext.AddUserTwiceIsRefused | src/contexts/UserContext.tsx:125-133 | a second add with the same names is refused |
| UserContext.UpdateUser | src/contexts/UserContext.tsx:151-154 | same length; users with the id are replaced and all others are kept in place |
| UserContext.UpdateUserThenFind | src/contexts/UserContext.tsx:151-154 | with unique ids the updated user is found at the id's position; an absent id leaves the list unchanged; ids stay unique |
| UserContext.DeleteUser | src/contexts/UserContext.tsx:161-181 | refused unless the current user's address is exactly the super-admin's; otherwise exactly the users with that id are removed, every other user keeping all its occurrences, in order |
| UserContext.DeleteUserAbsentAndTwice | src/contexts/UserContext.tsx:173 | deleting an absent id changes nothing; deleting twice is deleting once |
| UserContext.ToggleUserStatus | src/contexts/UserContext.tsx:183-190 | only users with that id change status, and only their status |
| UserContext.ToggleTwiceRestores | src/contexts/UserContext.tsx:183-190 | toggling the same id twice restores the list |
| UserContext.GetUserCases | src/contexts/UserContext.tsx:202-205 | the cases of the first user with that id; empty when no user has the id or the user has no cases |
| UserContext.ReplaceCase | src/contexts/UserContext.tsx:211-227 | same length; cases with that id become the new case and the others are kept |
| UserContext.UpdateCase | src/contexts/UserContext.tsx:211-227 | the global list has the case replaced by id; every user holding it has it replaced in their list; users not holding it are unchanged |
| UserContext.UpdateCaseIsConsistent | src/contexts/UserContext.tsx:211-227 | afterwards every copy of that case, global or per user, is the new case, and no other case is touched |
| Crypto.BytesToHex | src/utils/crypto.ts:51-55 | two lower-case hex digits per byte |
| Crypto.HexToBytes | src/utils/crypto.ts:42-48 | one byte per pair of hex digits |
| Crypto.HexRoundTrip | src/utils/crypto.ts:42-55 | decoding the hex of any byte sequence gives the bytes back |
| Crypto.HexRoundTripText | src/utils/crypto.ts:42-55 | encoding the bytes of lower-case hex gives the text back |
| Crypto.HexDigitValue | src/utils/crypto.ts:42-55 | each digit written for a nibble reads back as that nibble |
| Crypto.GetEncryptionKey | src/utils/crypto.ts:12-27 | a present key is returned without writing; a missing or empty key is replaced by the 64-digit hex of the random bytes and stored with all other entries kept; a failed write fails the call |
| Crypto.GetKeyIsStable | src/utils/crypto.ts:12-27 | two fetches with no rotation between them return the same key, and the second writes nothing |
| Crypto.RotateEncryptionKey | src/utils/crypto.ts:159-183 | only the key entry is overwritten, with the 64-digit hex of the random bytes; nothing is re-encrypted; a failed write is swallowed and leaves storage unchanged |
| Crypto.Encrypt | src/utils/crypto.ts:58-109 | every failure becomes "encryption failed" with no value; with no stored key and writable storage a fresh key is always written first; the call succeeds whenever the stored key has an importable length and sealing returns a value, and then the ciphertext is the hex of the sealed bytes of the UTF-8 plaintext under that key and the IV, and the IV is 24 hex digits decoding to the drawn IV; with a sound platform the ciphertext has the 16-byte tag |
| Crypto.OpenWith | src/utils/crypto.ts:119-143 | succeeds exactly when the key has an importable length and the cipher opens the decoded ciphertext under the decoded IV, and then returns the UTF-8 decoding of the opened bytes; every failure is "decryption failed" |
| Crypto.Decrypt | src/utils/crypto.ts:117-153 | every failure becomes "decryption failed" with no value; a present key is used exactly as stored; with no key, a fresh one is stored first and used, or the call fails with the storage unchanged when storage is not writable |
| Crypto.EncryptDecryptRoundTrip | src/utils/crypto.ts:69-153 | with a sound cipher and no rotation between the calls, decrypting an encryption returns the plaintext |
| Crypto.DecryptAfterRotationUsesNewKey | src/utils/crypto.ts:117-169 | after a successful rotation, decryption opens records with the new key bytes |
| Crypto.EncryptAfterRotationUsesNewKey | src/utils/crypto.ts:69-169 | after a successful rotation, encryption seals with the new key bytes |
| SearchUtils.Normalize | src/utils/searchUtils.ts:14 | the term is the lower-cased query with the whitespace `trim` removes cut from both ends: a slice of it with only whitespace outside and none at either end; it is lower case |
| SearchUtils.SearchCases | src/utils/searchUtils.ts:13-42 | an empty term returns the list unchanged; otherwise a case is kept iff its id's decimal text or a present lower-cased title, status, date, assignee, supplier or reference contains the term, with every occurrence of a kept case kept |
| SearchUtils.SearchIsSubsequence | src/utils/searchUtils.ts:16-18 | the result is an order-preserving subsequence of the input |
| SearchUtils.SearchIdempotent | src/utils/searchUtils.ts:18-41 | searching the result again with the same query changes nothing |
| SearchUtils.NormalizeIdempotent | src/utils/searchUtils.ts:14 | the result depends on the query only through its lower-cased, trimmed form |
| SearchUtils.RefiningNarrows | src/utils/searchUtils.ts:20-38 | a term containing a shorter term matches only cases the shorter term matches |
| SearchUtils.AmountIsNotSearched | src/utils/searchUtils.ts:2-41 | the amount never affects a match |
| SearchUtils.FoundById | src/utils/searchUtils.ts:20 | a case is found by its id |
| FileUpload.Resolve | src/components/upload/FileUpload.tsx:16-23 | omitted props default to 5 files, 10 MB and `.csv,.xlsx,.json,.xml`; given props are kept |
| FileUpload.HandleFiles | src/components/upload/FileUpload.tsx:54-99 | accepted iff the count, every size and (when `accept` is non-empty) every extension pass; refusals are checked count first, then size; a refusal leaves the selection and skips the callback; acceptance selects the files and passes the same list to the callback when there is one |
| FileUpload.ExactLimitPasses | src/components/upload/FileUpload.tsx:66 | a file of exactly the size limit passes |
| FileUpload.AcceptedPrefixIsAccepted | src/components/upload/FileUpload.tsx:56-91 | dropping files from the end of an accepted batch never gets it refused |
| FileUpload.ExtensionAfterLastDot | src/components/upload/FileUpload.tsx:80 | the extension is a dot plus the lower-cased text after the last dot |
| FileUpload.Extension | src/components/upload/FileUpload.tsx:80 | a dot followed by lower-case text holding no further dot |
| FileUpload.DotlessNameIsItsOwnExtension | src/components/upload/FileUpload.tsx:80 | a name without a dot counts as its own extension |
| FileUpload.ExtensionIgnoresCase | src/components/upload/FileUpload.tsx:80 | the case of the extension does not matter |
| FileUpload.DefaultFilter | src/components/upload/FileUpload.tsx:23 | the default filter accepts exactly the four listed extensions |
| FileUpload.SplitLast | src/components/upload/FileUpload.tsx:80 | the last piece of a split is the text after the last separator |
| TemplateGenerator.GenerateCSV | src/utils/templateGenerator.ts:5-9 | with no quoting or escaping: whenever no cell holds a newline (commas allowed), the text splits at newlines into the header line then one line per row, each being that row's cells joined verbatim by commas; when no cell holds a comma or newline and no row is empty, reading it back by lines and commas gives the header row and the data rows |
| TemplateGenerator.LineRoundTrip | src/utils/templateGenerator.ts:6-7 | one joined row splits back into its cells and holds no newline |
| TemplateGenerator.HeaderOnly | src/utils/templateGenerator.ts:5-9 | with no rows the text is the header line alone |
| TemplateGenerator.Lookup | src/utils/templateGenerator.ts:12-43 | exactly the three template keys name a template |
| TemplateGenerator.DownloadTemplate | src/utils/templateGenerator.ts:42-53 | a file is saved iff the key is one of the three templates, under that template's own `.csv` file name, with content that reads back as that template's rows; inherited object member names throw; any other key saves nothing |
| TemplateGenerator.LookupWellFormed | src/utils/templateGenerator.ts:12-40 | every template has a `.csv` file name, plain cells, and data rows as wide as its header row |
| TemplateGenerator.GeneralWellFormed | src/utils/templateGenerator.ts:13-21 | the general template is well formed, 6 columns |
| TemplateGenerator.BankDepositsWellFormed | src/utils/templateGenerator.ts:22-30 | the bank-deposits template is well formed, 4 columns |
| TemplateGenerator.ProcurementWellFormed | src/utils/templateGenerator.ts:31-39 | the procurement template is well formed, 5 columns |
| NotificationsDropdown.UnreadCount | src/components/layout/NotificationsDropdown.tsx:59 | the badge equals the number of positions holding an unread notification; zero iff every notification is read |
| NotificationsDropdown.MarkAllAsRead | src/components/layout/NotificationsDropdown.tsx:74-85 | same length and order; every entry read and otherwise unchanged; unread count zero |
| NotificationsDropdown.MarkAllAsReadIdempotent | src/components/layout/NotificationsDropdown.tsx:74-80 | marking all read twice is marking once |
| NotificationsDropdown.Dismiss | src/components/layout/NotificationsDropdown.tsx:87-93 | exactly the entries with that id are removed; every other entry keeps all its occurrences and the order is kept |
| NotificationsDropdown.MarkAsRead | src/components/layout/NotificationsDropdown.tsx:95-103 | only entries with that id change, to read; the popover closes |
| NotificationsDropdown.DismissNeverRaisesUnread | src/components/layout/NotificationsDropdown.tsx:87-88 | dismissing never raises the unread count |
| NotificationsDropdown.MarkAsReadNeverRaisesUnread | src/components/layout/NotificationsDropdown.tsx:95-100 | marking read never raises the unread count |
| NotificationsDropdown.SampleHasTwoUnread | src/components/layout/NotificationsDropdown.tsx:23-52 | the initial notifications have two unread |
| CaseTabs.ResolvedCases | src/components/cases/CaseTabs.tsx:21 | exactly the closed cases, each as many times as it occurs in the input, as an order-preserving subsequence |
| CaseTabs.EscalatedCases | src/components/cases/CaseTabs.tsx:22 | exactly the cases with a non-empty escalation target that are not closed, each as many times as it occurs in the input, in order |
| CaseTabs.ReportedCases | src/components/cases/CaseTabs.tsx:23 | exactly the cases reported to the authorities, whatever their status, each as many times as it occurs in the input, in order |
| CaseTabs.ResolvedAndEscalatedAreDisjoint | src/components/cases/CaseTabs.tsx:21-22 | no case is on both the reconciled and the escalated tab |
| CaseTabs.ReportedMayOverlapResolved | src/components/cases/CaseTabs.tsx:21-23 | a closed, reported case is on both the reconciled and the reported tab |
| CaseTabs.ReportedLabel | src/components/cases/CaseTabs.tsx:231-237 | "Resolved" iff the case is closed, otherwise "Under Investigation" |
| CaseTabs.Display | src/components/cases/CaseTabs.tsx:98-99 | a present, non-empty field is shown as is; otherwise the fallback is shown; a cell is never blank when the fallback is not |
| CaseTabs.MissingReferenceIsPending | src/components/cases/CaseTabs.tsx:229 | a missing or empty reference number shows "Pending" |
| CaseTabs.CellsAreNeverBlank | src/components/cases/CaseTabs.tsx:98-229 | the assignee, actions, reconciled-by, resolution and reference cells are never blank |
| TransactionMatching.FilteredTransactions | src/components/transactions/TransactionMatchingTable.tsx:130-132 | with the flag filter on, exactly the flagged rows, each as many times as it occurs, in order; otherwise all rows |
| TransactionMatching.SampleFlagged | src/components/transactions/TransactionMatchingTable.tsx:8-106 | of the six sample rows the flag filter keeps the last three |
| TransactionMatching.StatusBadge | src/components/transactions/TransactionMatchingTable.tsx:108-121 | the badge is "Unknown" iff the status is none of the four known ones |
| TransactionMatching.ConfidenceBucket | src/components/transactions/TransactionMatchingTable.tsx:210-214 | green from 90, yellow from 70 to 89, red below 70 |
| TransactionMatching.BucketMonotone | src/components/transactions/TransactionMatchingTable.tsx:210-214 | a higher confidence never gets a worse colour |
| TransactionMatching.RowActions | src/components/transactions/TransactionMatchingTable.tsx:227-241 | confirm appears iff matched or partial match, the alert iff flagged, never both |
| TransactionMatching.Click | src/components/transactions/TransactionMatchingTable.tsx:177-179 | clicking the selected row clears the selection; any other click selects that row |
| TransactionMatching.ClickTwice | src/components/transactions/TransactionMatchingTable.tsx:177-179 | two clicks on one row restore the selection iff nothing or that row was selected |
| TransactionMatching.DetailPanel | src/components/transactions/TransactionMatchingTable.tsx:246-289 | a panel appears iff the selection is non-empty and names a row of the full list |
| TransactionMatching.DetailPriority | src/components/transactions/TransactionMatchingTable.tsx:250-284 | the panel shows the flag reason when there is one, else the match details, else "no additional details" |
| AlertsPage.FilteredAlerts | src/pages/Alerts.tsx:150-152 | "all" shows every alert; any other filter shows exactly the alerts with that status, each as many times as it occurs, as an order-preserving subsequence |
| AlertsPage.PendingCount | src/pages/Alerts.tsx:215 | the badge equals the number of alerts whose status is "pending", over all alerts; positive iff one is pending |
| AlertsPage.PendingBadgeMatchesPendingFilter | src/pages/Alerts.tsx:215 | the pending badge equals the length of the pending filter's list, whatever filter is active |
| AlertsPage.EmptyState | src/pages/Alerts.tsx:286-296 | shown iff the filtered list is empty, with the message for "all" or for the named filter |
| AlertsPage.EmptyUnderAllMeansNoAlerts | src/pages/Alerts.tsx:286-296 | under "all" the empty state appears iff there are no alerts |
| AlertsPage.Badge | src/pages/Alerts.tsx:114-144 | "Unknown" iff the status is none of resolved, investigating and pending |
| AlertsPage.SeverityIcon | src/pages/Alerts.tsx:101-112 | grey iff the severity is none of high, medium and low |
| AlertsPage.SampleHasFivePending | src/pages/Alerts.tsx:18-99 | the sample data has five pending alerts |

## Left out

- `toLowerCase` is modelled on ASCII letters only; the source folds all of Unicode.
- Number-to-text conversion is modelled for integers only; ids are integers in the source.
- Router path matching is left out; routes are an enumeration, with their declared paths as data.
- The mock users, the mock cases and the initial current user are left out; every operation takes the store and the current user as inputs.
- Toasts, `console.error`, navigation and `<Navigate>`, `saveAs` and `Blob` are left out; refusals and outcomes are results instead.
- AES-GCM, key import, `getRandomValues`, `TextEncoder` and `TextDecoder` are not modelled. They are function values and parameters; soundness is a hypothesis, never an axiom.
- Crypto.Decrypt: the ciphertext and the IV must be hex text; the source accepts any text, so a corrupted record whose text is not hex is outside the model (see the HexToBytes line below).
- Crypto.HexToBytes: malformed hex (odd length, non-hex characters) is excluded by a precondition instead of modelling the source's truncation and NaN-to-zero behaviour.
- Crypto.WellFormed: a stored key that is not valid hex is excluded by a precondition of encrypt and decrypt, for the same reason.
- Crypto.EncryptDecryptRoundTrip: tamper detection and wrong-key rejection are not stated; they are probabilistic properties of AES-GCM.
- A failing `getRandomValues` is not modelled; random bytes are always supplied.
- Races between browser tabs generating the first key are not modelled (concurrency).
- Asynchrony is not modelled: each encrypt, decrypt or rotate call is one atomic step.
- Amounts (floating point, formatted with `toFixed`) are left out of transactions, searchable cases and alerts, except that the search model records that the amount is never searched.
- TransactionMatching.ConfidenceBucket: the match confidence is a JavaScript number, modelled as an integer; fractional confidences (say 89.5) are left out, though the thresholds compare the same way.
- UserContext.AddUser: the `name` field a caller passes is dropped, because the source overwrites it.
- UserContext.AddUser: the source checks uniqueness and computes the id from the list as of the last render (lines 125 and 141) but appends to the pending state (line 144); the model treats the two as one list, so AddUserKeepsUniqueness covers calls that each see the previous call's result, not two calls batched into one render, which can add duplicate ids or addresses.
- UserContext.GenerateEmail: strings are sequences of Unicode scalar values, while JavaScript strings are UTF-16 code units; for a first name starting with a character outside the Basic Multilingual Plane `charAt(0)` yields a lone surrogate, whereas the model takes the whole character. Elsewhere the difference shows only in lengths and indices of such characters.
- The encrypted-data hook, the simulated upload section, the add-user dialog, charts and percentage maths, and the static pages are not part of this model.
- Drag-and-drop state, progress display and `isUploading` in the file picker are display-only and left out.
- Descriptions, vendors, timestamps and amounts of alerts are left out, along with icons and CSS classes; notifications keep every field.

=== FILE: alerts_page.dfy ===
/** The fraud alerts page (src/pages/Alerts.tsx): the status filter, the
    pending badge, the empty state and the badges of a row. */
module AlertsPage {
  import opened Options
  import opened Seqs

  /** An alert as the page lists it; description, vendor, amount and
      timestamp are display text only and are left out. */
  datatype Alert = Alert(id: int, title: string, severity: string, status: string)

  /** The filter button "all" shows everything. */
  const AllFilter: string := "all"

  /** The alerts shown under the active filter. */
  function FilteredAlerts(alerts: seq<Alert>, activeFilter: string): (r: seq<Alert>)
    ensures activeFilter == AllFilter ==> r == alerts
    ensures activeFilter != AllFilter ==> forall i :: 0 <= i < |r| ==> r[i].status == activeFilter
    ensures activeFilter != AllFilter ==> forall i :: 0 <= i < |alerts| ==> (alerts[i] in r <==> alerts[i].status == activeFilter)
    ensures activeFilter != AllFilter ==> forall a | a in multiset(alerts) ::
      multiset(r)[a] == if a.status == activeFilter then multiset(alerts)[a] else 0
    ensures forall i :: 0 <= i < |r| ==> r[i] in alerts
    ensures IsSubsequence(r, alerts)
  {
    if activeFilter == AllFilter then
      SubsequenceReflexive(alerts);
      alerts
    else
      FilterIsSubsequence(HasStatus(activeFilter), alerts);
      FilterMultiplicity(HasStatus(activeFilter), alerts);
      Filter(HasStatus(activeFilter), alerts)
  }

  /** The test the filter applies. */
  function HasStatus(status: string): Alert -> bool {
    (a: Alert) => a.status == status
  }

  /** The number on the "Pending" button, counted over all alerts. */
  function PendingCount(alerts: seq<Alert>): (n: nat)
    ensures n == |set i | 0 <= i < |alerts| && alerts[i].status == "pending"|
    ensures n <= |alerts|
    ensures n > 0 <==> exists i :: 0 <= i < |alerts| && alerts[i].status == "pending"
  {
    assert IndicesWhere(HasStatus("pending"), alerts) == set i | 0 <= i < |alerts| && alerts[i].status == "pending";
    Count(HasStatus("pending"), alerts)
  }

  /** The pending badge does not depend on the active filter: it always
      equals the length of the list the "Pending" filter would show. */
  lemma PendingBadgeMatchesPendingFilter(alerts: seq<Alert>)
    ensures PendingCount(alerts) == |FilteredAlerts(alerts, "pending")|
  {
  }

  /** The empty-state block: shown only when the filtered list is empty,
      with a message that names the filter. */
  function EmptyState(alerts: seq<Alert>, activeFilter: string): (msg: Option<string>)
    ensures msg.Some? <==> |FilteredAlerts(alerts, activeFilter)| == 0
    ensures msg.Some? && activeFilter == AllFilter ==> msg.value == "There are no fraud alerts in the system."
    ensures msg.Some? && activeFilter != AllFilter ==>
      msg.value == "There are no " + activeFilter + " alerts at this time."
  {
    if |FilteredAlerts(alerts, activeFilter)| != 0 then None
    else if activeFilter == AllFilter then Some("There are no fraud alerts in the system.")
    else Some("There are no " + activeFilter + " alerts at this time.")
  }

  /** Under "all" the empty state appears only when there are no alerts at all. */
  lemma EmptyUnderAllMeansNoAlerts(alerts: seq<Alert>)
    ensures EmptyState(alerts, AllFilter).Some? <==> alerts == []
  {
  }

  /** The status badge; anything unrecognised is "Unknown". */
  datatype StatusBadge = ResolvedBadge | InvestigatingBadge | PendingBadge | UnknownBadge

  function Badge(status: string): (b: StatusBadge)
    ensures b == UnknownBadge <==> status !in {"resolved", "investigating", "pending"}
    ensures b == PendingBadge <==> status == "pending"
  {
    if status == "resolved" then ResolvedBadge
    else if status == "investigating" then InvestigatingBadge
    else if status == "pending" then PendingBadge
    else UnknownBadge
  }

  /** The colour of the severity icon; an unrecognised severity is grey. */
  datatype SeverityColour = HighColour | MediumColour | LowColour | Grey

  function SeverityIcon(severity: string): (c: SeverityColour)
    ensures c == Grey <==> severity !in {"high", "medium", "low"}
  {
    if severity == "high" then HighColour
    else if severity == "medium" then MediumColour
    else if severity == "low" then LowColour
    else Grey
  }

  /** The alerts the page ships with. */
  const Sample: seq<Alert> := [
    Alert(1, "Duplicate invoice detected", "high", "pending"),
    Alert(2, "Unusual payment term modification", "medium", "pending"),
    Alert(3, "Potential price inflation", "high", "pending"),
    Alert(4, "Bank account change", "medium", "resolved"),
    Alert(5, "Unmatched transaction", "low", "resolved"),
    Alert(6, "Price variance above threshold", "medium", "pending"),
    Alert(7, "Approval bypass detected", "high", "pending"),
    Alert(8, "Invoice without purchase order", "medium", "investigating")]

  /** Five of the eight sample alerts are pending: ids 1, 2, 3, 6 and 7. */
  lemma SampleHasFivePending()
    ensures PendingCount(Sample) == 5
  {
    var a, b, c, d := Sample[..3], Sample[3..5], Sample[5..7], Sample[7..];
    assert Sample == a + b + c + d;
    FilterAll(HasStatus("pending"), a);
    FilterNone(HasStatus("pending"), b);
    FilterAll(HasStatus("pending"), c);
    FilterNone(HasStatus("pending"), d);
    FilterAppend(HasStatus("pending"), a, b);
    FilterAppend(HasStatus("pending"), a + b, c);
    FilterAppend(HasStatus("pending"), a + b + c, d);
  }
}

=== FILE: app_routes.dfy ===
/** The route table of the application (src/App.tsx): which guard, if any,
    wraps each page, and the per-route access facts that follow from the
    guard decision and the permission table. */
module AppRoutes {
  import opened Options
  import opened RolePermissions
  import opened ProtectedRoute

  /** The declared routes; `CatchAll` is the `*` route to the not-found page. */
  datatype Route =
    | Home | UploadPage | Matching | Reconciliation | History | CasesPage
    | AlertsPage | ReportsPage | UsersPage | SettingsPage | CatchAll

  /** The props a `ProtectedRoute` wrapper is given. */
  datatype Guard = Guard(requiredRoles: Option<seq<string>>, requiredPermission: Option<Permission>)

  /** The path each route is declared under. */
  function Path(r: Route): string {
    match r
    case Home => "/"
    case UploadPage => "/upload"
    case Matching => "/transactions/matching"
    case Reconciliation => "/transactions/reconciliation"
    case History => "/transactions/history"
    case CasesPage => "/cases"
    case AlertsPage => "/alerts"
    case ReportsPage => "/reports"
    case UsersPage => "/users"
    case SettingsPage => "/settings"
    case CatchAll => "*"
  }

  /** The guard wrapped around each route's page; None when unguarded. */
  function GuardOf(r: Route): (g: Option<Guard>)
    ensures g.None? <==> r in {Home, UsersPage, CatchAll}
    ensures g.Some? ==> (g.value.requiredRoles.Some? <==> g.value.requiredPermission.None?)
    ensures g.Some? && g.value.requiredRoles.Some? ==>
      |g.value.requiredRoles.value| > 0 && "Administrator" in g.value.requiredRoles.value
  {
    match r
    case Home => None
    case UploadPage => Some(Guard(None, Some(Import)))
    case Matching => Some(Guard(Some(["Administrator", "Specialist", "Analyst"]), None))
    case Reconciliation => Some(Guard(Some(["Administrator", "Manager", "Specialist"]), None))
    case History => Some(Guard(None, Some(Read)))
    case CasesPage => Some(Guard(None, Some(HandleCases)))
    case AlertsPage => Some(Guard(None, Some(ReviewAlerts)))
    case ReportsPage => Some(Guard(None, Some(Export)))
    case UsersPage => None
    case SettingsPage => Some(Guard(Some(["Administrator"]), None))
    case CatchAll => None
  }

  /** Whether a visitor (None: nobody logged in) gets the route's page. */
  predicate Allowed(r: Route, current: Option<Role>) {
    match GuardOf(r)
    case None => true
    case Some(g) => Decide(current, g.requiredRoles, g.requiredPermission) == Render
  }

  /** The declared paths are pairwise distinct, so each path names one route. */
  lemma PathsDistinct(r1: Route, r2: Route)
    ensures Path(r1) == Path(r2) ==> r1 == r2
  {
  }

  /** Settings: Administrator only. */
  lemma SettingsAccess(role: Role)
    ensures Allowed(SettingsPage, Some(role)) <==> role == Administrator
  {
  }

  /** Upload (import): Administrator, Manager and Specialist. */
  lemma UploadAccess(role: Role)
    ensures Allowed(UploadPage, Some(role)) <==> role in {Administrator, Manager, Specialist}
  {
  }

  /** Cases (handleCases): Administrator and Analyst. */
  lemma CasesAccess(role: Role)
    ensures Allowed(CasesPage, Some(role)) <==> role in {Administrator, Analyst}
  {
  }

  /** Alerts (reviewAlerts): Administrator, Manager and Specialist. */
  lemma AlertsAccess(role: Role)
    ensures Allowed(AlertsPage, Some(role)) <==> role in {Administrator, Manager, Specialist}
  {
  }

  /** Transaction history (read): every role. */
  lemma EveryRoleReadsHistory(role: Role)
    ensures Allowed(History, Some(role))
  {
  }

  /** Reports (export): every role. */
  lemma EveryRoleReadsReports(role: Role)
    ensures Allowed(ReportsPage, Some(role))
  {
  }

  /** Matching is gated by role, not by permission: Manager and Executive are
      denied although both hold `read`. */
  lemma MatchingAccess(role: Role)
    ensures Allowed(Matching, Some(role)) <==> role in {Administrator, Specialist, Analyst}
    ensures CheckPermission(Manager, Read) && CheckPermission(Executive, Read)
  {
  }

  /** Reconciliation: Administrator, Manager and Specialist. */
  lemma ReconciliationAccess(role: Role)
    ensures Allowed(Reconciliation, Some(role)) <==> role in {Administrator, Manager, Specialist}
  {
  }

  /** The home page, user management and the not-found page carry no guard,
      so they are shown even with nobody logged in; every guarded route
      needs a logged-in user. */
  lemma UnguardedRoutes(r: Route, current: Option<Role>)
    ensures GuardOf(r).None? ==> Allowed(r, current)
    ensures GuardOf(r).Some? ==> !Allowed(r, None)
  {
  }

  /** An Administrator is let into every route. */
  lemma AdministratorReachesEverything(r: Route)
    ensures Allowed(r, Some(Administrator))
  {
  }
}

=== FILE: case_tabs.dfy ===
/** The case tabs (src/components/cases/CaseTabs.tsx): which cases each tab
    lists and the labels the tables fall back to. */
module CaseTabs {
  import opened Options
  import opened Seqs
  import opened UserTypes

  predicate IsResolved(c: Case) {
    c.status == Closed
  }

  /** Escalated and still open: `escalatedTo` is set (non-empty) and the case is not closed. */
  predicate IsEscalated(c: Case) {
    TruthyString(c.escalatedTo) && c.status != Closed
  }

  predicate IsReported(c: Case) {
    TruthyBool(c.reportedToAuthorities)
  }

  /** The "reconciled" tab. */
  function ResolvedCases(cases: seq<Case>): (r: seq<Case>)
    ensures forall i :: 0 <= i < |cases| ==> (cases[i] in r <==> cases[i].status == Closed)
    ensures forall c | c in multiset(cases) :: multiset(r)[c] == if c.status == Closed then multiset(cases)[c] else 0
    ensures forall i :: 0 <= i < |r| ==> r[i] in cases
    ensures IsSubsequence(r, cases)
  {
    FilterIsSubsequence(IsResolved, cases);
    FilterMultiplicity(IsResolved, cases);
    Filter(IsResolved, cases)
  }

  /** The "escalated" tab. */
  function EscalatedCases(cases: seq<Case>): (r: seq<Case>)
    ensures forall i :: 0 <= i < |cases| ==>
      (cases[i] in r <==> cases[i].escalatedTo.Some? && cases[i].escalatedTo.value != "" && cases[i].status != Closed)
    ensures forall c | c in multiset(cases) ::
      multiset(r)[c] == if c.escalatedTo.Some? && c.escalatedTo.value != "" && c.status != Closed then multiset(cases)[c] else 0
    ensures forall i :: 0 <= i < |r| ==> r[i] in cases
    ensures IsSubsequence(r, cases)
  {
    FilterIsSubsequence(IsEscalated, cases);
    FilterMultiplicity(IsEscalated, cases);
    Filter(IsEscalated, cases)
  }

  /** The "reported" tab: whatever the status. */
  function ReportedCases(cases: seq<Case>): (r: seq<Case>)
    ensures forall i :: 0 <= i < |cases| ==> (cases[i] in r <==> cases[i].reportedToAuthorities == Some(true))
    ensures forall c | c in multiset(cases) ::
      multiset(r)[c] == if c.reportedToAuthorities == Some(true) then multiset(cases)[c] else 0
    ensures forall i :: 0 <= i < |r| ==> r[i] in cases
    ensures IsSubsequence(r, cases)
  {
    FilterIsSubsequence(IsReported, cases);
    FilterMultiplicity(IsReported, cases);
    Filter(IsReported, cases)
  }

  /** No case is on both the reconciled and the escalated tab. */
  lemma ResolvedAndEscalatedAreDisjoint(cases: seq<Case>)
    ensures forall i, j :: 0 <= i < |ResolvedCases(cases)| && 0 <= j < |EscalatedCases(cases)| ==>
      ResolvedCases(cases)[i] != EscalatedCases(cases)[j]
  {
    var r := ResolvedCases(cases);
    var e := EscalatedCases(cases);
    assert forall i :: 0 <= i < |r| ==> IsResolved(r[i]);
    assert forall j :: 0 <= j < |e| ==> IsEscalated(e[j]);
  }

  /** A closed case reported to the authorities is on both the reconciled
      and the reported tab: those two tabs may overlap. */
  lemma ReportedMayOverlapResolved(c: Case)
    requires c.status == Closed && c.reportedToAuthorities == Some(true)
    ensures ResolvedCases([c]) == [c] && ReportedCases([c]) == [c]
  {
    FilterAll(IsResolved, [c]);
    FilterAll(IsReported, [c]);
  }

  /** The status badge on the reported tab. */
  function ReportedLabel(c: Case): (badge: string)
    ensures badge == "Resolved" <==> c.status == Closed
    ensures badge == "Resolved" || badge == "Under Investigation"
  {
    if c.status == Closed then "Resolved" else "Under Investigation"
  }

  /** A table cell `field || fallback`: the field when truthy, else the fallback. */
  function Display(field: Option<string>, fallback: string): (shown: string)
    ensures shown == fallback || (field.Some? && shown == field.value)
    ensures field.Some? && field.value != "" ==> shown == field.value
    ensures fallback != "" ==> shown != ""
  {
    if TruthyString(field) then field.value else fallback
  }

  /** The fallbacks of the overview, reconciled and reported tables. */
  function AssignedToCell(c: Case): string { Display(c.assignedTo, "Unassigned") }
  function ActionsTakenCell(c: Case): string { Display(c.actionsTaken, "None") }
  function ResolvedByCell(c: Case): string { Display(c.resolvedBy, "System") }
  function ResolutionCell(c: Case): string { Display(c.resolution, "Case closed") }
  function ReferenceNumberCell(c: Case): string { Display(c.referenceNumber, "Pending") }

  /** A reported case without a reference number shows "Pending"; an empty
      reference number counts as missing. */
  lemma MissingReferenceIsPending(c: Case)
    requires c.referenceNumber.None? || c.referenceNumber == Some("")
    ensures ReferenceNumberCell(c) == "Pending"
  {
  }

  /** These cells are never blank. */
  lemma CellsAreNeverBlank(c: Case)
    ensures AssignedToCell(c) != "" && ActionsTakenCell(c) != "" && ResolvedByCell(c) != ""
    ensures ResolutionCell(c) != "" && ReferenceNumberCell(c) != ""
  {
  }
}

=== FILE: crypto.dfy ===
/** The encrypted audit pipeline (src/utils/crypto.ts): the hex codec, the
    key store kept in browser storage, key rotation, and encrypt/decrypt over
    an authenticated cipher.

    The browser primitives are not modelled: AES-GCM (with key import) and
    the UTF-8 encoder/decoder are the function values of a `Platform`, and
    every property that needs them to behave takes `Sound(platform)` as a
    hypothesis. Random bytes are parameters. */
module Crypto {
  import opened Options

  newtype byte = x: int | 0 <= x < 256

  /** A key is 32 random bytes (256 bits). */
  const KeyBytes: nat := 32

  /** An IV is 12 random bytes (96 bits, as GCM recommends). */
  const IvBytes: nat := 12

  /** The authentication tag is 128 bits. */
  const TagBytes: nat := 16

  /** The storage entry holding the key. */
  const KeyEntry: string := "encryption_key"

  // ---------------------------------------------------------------- hex codec

  /** The lower-case hexadecimal digit for `n`, as `toString(16)` writes it. */
  function HexDigit(n: int): char
    requires 0 <= n < 16
  {
    if n < 10 then (48 + n) as char else (87 + n) as char
  }

  predicate IsLowerHexChar(c: char) {
    '0' <= c <= '9' || 'a' <= c <= 'f'
  }

  /** The characters `parseInt(_, 16)` accepts as digits. */
  predicate IsHexChar(c: char) {
    IsLowerHexChar(c) || 'A' <= c <= 'F'
  }

  /** A hex text `hexToBytes` decodes without loss: even length, digits only. */
  predicate IsHex(h: string) {
    |h| % 2 == 0 && forall i :: 0 <= i < |h| ==> IsHexChar(h[i])
  }

  predicate IsLowerHex(h: string) {
    forall i :: 0 <= i < |h| ==> IsLowerHexChar(h[i])
  }

  /** The value of one hex digit, either case. */
  function HexValue(c: char): (v: int)
    requires IsHexChar(c)
    ensures 0 <= v < 16
  {
    if '0' <= c <= '9' then c as int - 48
    else if 'a' <= c <= 'f' then c as int - 87
    else c as int - 55
  }

  lemma HexDigitValue(n: int)
    requires 0 <= n < 16
    ensures IsLowerHexChar(HexDigit(n)) && HexValue(HexDigit(n)) == n
  {
  }

  /** `b.toString(16).padStart(2, '0')`. */
  function ByteToHex(b: byte): string {
    [HexDigit(b as int / 16), HexDigit(b as int % 16)]
  }

  /** `bytesToHex`: two lower-case digits per byte. */
  function BytesToHex(bs: seq<byte>): (h: string)
    ensures |h| == 2 * |bs|
    ensures IsLowerHex(h)
    decreases |bs|
  {
    if |bs| == 0 then ""
    else
      HexDigitValue(bs[0] as int / 16);
      HexDigitValue(bs[0] as int % 16);
      ByteToHex(bs[0]) + BytesToHex(bs[1..])
  }

  /** `hexToBytes`: each pair of digits is one byte. */
  function HexToBytes(h: string): (bs: seq<byte>)
    requires IsHex(h)
    ensures |bs| == |h| / 2
    decreases |h|
  {
    if |h| == 0 then []
    else [(HexValue(h[0]) * 16 + HexValue(h[1])) as byte] + HexToBytes(h[2..])
  }

  /** Decoding an encoding gives the bytes back. */
  lemma {:induction false} HexRoundTrip(bs: seq<byte>)
    ensures IsHex(BytesToHex(bs))
    ensures HexToBytes(BytesToHex(bs)) == bs
    decreases |bs|
  {
    if |bs| > 0 {
      var b := bs[0] as int;
      HexDigitValue(b / 16);
      HexDigitValue(b % 16);
      HexRoundTrip(bs[1..]);
      var h := BytesToHex(bs);
      assert h[2..] == BytesToHex(bs[1..]);
      assert HexValue(h[0]) * 16 + HexValue(h[1]) == b;
      assert [bs[0]] + bs[1..] == bs;
    }
  }

  /** Encoding a decoding gives a lower-case hex text back unchanged. */
  lemma {:induction false} HexRoundTripText(h: string)
    requires IsHex(h) && IsLowerHex(h)
    ensures BytesToHex(HexToBytes(h)) == h
    decreases |h|
  {
    if |h| > 0 {
      var b := HexValue(h[0]) * 16 + HexValue(h[1]);
      assert b / 16 == HexValue(h[0]) && b % 16 == HexValue(h[1]);
      assert HexDigit(HexValue(h[0])) == h[0];
      assert HexDigit(HexValue(h[1])) == h[1];
      HexRoundTripText(h[2..]);
      assert HexToBytes(h)[1..] == HexToBytes(h[2..]);
      assert [h[0], h[1]] + h[2..] == h;
    }
  }

  // ---------------------------------------------------------------- key store

  /** Browser storage: string entries, and whether `setItem` succeeds
      (it throws when storage is full or disabled). */
  datatype Storage = Storage(entries: map<string, string>, writable: bool)

  /** `!localStorage.getItem('encryption_key')`: missing or empty. */
  predicate KeyAbsent(s: Storage) {
    KeyEntry !in s.entries || s.entries[KeyEntry] == ""
  }

  /** A stored key, when present, is hex that `hexToBytes` decodes exactly. */
  predicate WellFormed(s: Storage) {
    !KeyAbsent(s) ==> IsHex(s.entries[KeyEntry])
  }

  /** A freshly generated key as stored: 64 lower-case hex digits that decode
      to the random bytes drawn. */
  predicate IsFreshKey(key: string, random: seq<byte>) {
    |key| == 2 * KeyBytes && IsLowerHex(key) && IsHex(key) && HexToBytes(key) == random
  }

  datatype CryptoError = StorageWriteFailed | EncryptionFailed | DecryptionFailed

  datatype KeyFetch = KeyFetch(key: string, storage: Storage)

  /** The storage after writing the key entry; every other entry is kept. */
  predicate StoredAs(before: Storage, after: Storage, key: string) {
    after == before.(entries := before.entries[KeyEntry := key])
  }

  /** `getEncryptionKey`: the stored key, or else a new one generated from
      `random` (what `getRandomValues` drew), stored and returned. */
  function GetEncryptionKey(s: Storage, random: seq<byte>): (r: Result<KeyFetch, CryptoError>)
    requires |random| == KeyBytes
    ensures !KeyAbsent(s) ==> r == Success(KeyFetch(s.entries[KeyEntry], s))
    ensures KeyAbsent(s) && !s.writable ==> r == Failure(StorageWriteFailed)
    ensures KeyAbsent(s) && s.writable ==>
      r.Success? && IsFreshKey(r.value.key, random) && StoredAs(s, r.value.storage, r.value.key)
    ensures r.Success? ==>
      (!KeyAbsent(r.value.storage) && r.value.storage.entries[KeyEntry] == r.value.key
       && (WellFormed(s) ==> WellFormed(r.value.storage)))
  {
    if !KeyAbsent(s) then Success(KeyFetch(s.entries[KeyEntry], s))
    else if !s.writable then Failure(StorageWriteFailed)
    else
      var key := BytesToHex(random);
      HexRoundTrip(random);
      Success(KeyFetch(key, s.(entries := s.entries[KeyEntry := key])))
  }

  /** Two key fetches without a rotation in between return the same key, and
      the second writes nothing. */
  lemma GetKeyIsStable(s: Storage, random1: seq<byte>, random2: seq<byte>)
    requires |random1| == KeyBytes && |random2| == KeyBytes
    requires GetEncryptionKey(s, random1).Success?
    ensures GetEncryptionKey(GetEncryptionKey(s, random1).value.storage, random2)
      == GetEncryptionKey(s, random1)
  {
  }

  datatype RotationStatus = Rotated | RotationFailed

  datatype Rotation = Rotation(status: RotationStatus, storage: Storage)

  /** `rotateEncryptionKey`: overwrite the key entry with a new key generated
      from `random`. Nothing is re-encrypted. A failure is swallowed: the
      call still completes, with the storage as it was. */
  function RotateEncryptionKey(s: Storage, random: seq<byte>): (r: Rotation)
    requires |random| == KeyBytes
    ensures r.status == RotationFailed <==> !s.writable
    ensures r.status == RotationFailed ==> r.storage == s
    ensures r.status == Rotated ==>
      exists key :: IsFreshKey(key, random) && StoredAs(s, r.storage, key)
    ensures WellFormed(s) ==> WellFormed(r.storage)
  {
    if !s.writable then Rotation(RotationFailed, s)
    else
      var key := BytesToHex(random);
      HexRoundTrip(random);
      assert IsFreshKey(key, random);
      Rotation(Rotated, s.(entries := s.entries[KeyEntry := key]))
  }

  // ------------------------------------------------------- encrypt / decrypt

  /** The browser primitives the pipeline calls. `seal` and `open` take the
      raw key bytes, the IV and the input; `None` is a rejected call. */
  datatype Platform = Platform(
    seal: (seq<byte>, seq<byte>, seq<byte>) -> Option<seq<byte>>,
    open: (seq<byte>, seq<byte>, seq<byte>) -> Option<seq<byte>>,
    encodeUtf8: string -> seq<byte>,
    decodeUtf8: seq<byte> -> string)

  /** What the pipeline relies on: a sealed message carries a 16-byte tag and
      opens, under the same key and IV, to the message; text survives UTF-8
      encoding and decoding. */
  ghost predicate Sound(p: Platform) {
    && (forall k, iv, m :: p.seal(k, iv, m).Some? ==>
          |p.seal(k, iv, m).value| == |m| + TagBytes && p.open(k, iv, p.seal(k, iv, m).value) == Some(m))
    && (forall t :: p.decodeUtf8(p.encodeUtf8(t)) == t)
  }

  /** `importKey("raw", ..., "AES-GCM")` accepts 128-, 192- and 256-bit keys. */
  predicate ImportableKey(k: seq<byte>) {
    |k| == 16 || |k| == 24 || |k| == 32
  }

  datatype EncryptedRecord = EncryptedRecord(ciphertext: string, iv: string)

  /** A result together with the storage the call leaves behind (a key may
      have been generated even when the call then fails). */
  datatype Outcome<T> = Outcome(result: Result<T, CryptoError>, storage: Storage)

  /** `encrypt`: fetch (or create) the key, import it, seal the UTF-8 bytes
      under the fresh IV `iv`, and return both as hex. Every failure becomes
      `EncryptionFailed`; no value is returned with it. */
  function Encrypt(s: Storage, p: Platform, random: seq<byte>, iv: seq<byte>, plaintext: string)
    : (r: Outcome<EncryptedRecord>)
    requires WellFormed(s)
    requires |random| == KeyBytes && |iv| == IvBytes
    ensures r.result.Failure? ==> r.result.error == EncryptionFailed
    ensures r.result.Success? ==>
      && |r.result.value.iv| == 2 * IvBytes
      && IsHex(r.result.value.iv) && HexToBytes(r.result.value.iv) == iv
      && IsHex(r.result.value.ciphertext)
    ensures Sound(p) && r.result.Success? ==>
      |r.result.value.ciphertext| == 2 * (|p.encodeUtf8(plaintext)| + TagBytes)
    ensures WellFormed(r.storage)
    ensures r.storage == s || (KeyAbsent(s) && s.writable && exists key :: IsFreshKey(key, random) && StoredAs(s, r.storage, key))
    ensures KeyAbsent(s) && s.writable ==> exists key :: IsFreshKey(key, random) && StoredAs(s, r.storage, key)
    ensures !KeyAbsent(r.storage) && ImportableKey(HexToBytes(r.storage.entries[KeyEntry]))
      && p.seal(HexToBytes(r.storage.entries[KeyEntry]), iv, p.encodeUtf8(plaintext)).Some?
      ==> r.result.Success?
    ensures r.result.Success? ==>
      && !KeyAbsent(r.storage)
      && p.seal(HexToBytes(r.storage.entries[KeyEntry]), iv, p.encodeUtf8(plaintext)).Some?
      && r.result.value.ciphertext
         == BytesToHex(p.seal(HexToBytes(r.storage.entries[KeyEntry]), iv, p.encodeUtf8(plaintext)).value)
  {
    match GetEncryptionKey(s, random)
    case Failure(_) => Outcome(Failure(EncryptionFailed), s)
    case Success(KeyFetch(key, s1)) =>
      var keyBytes := HexToBytes(key);
      if !ImportableKey(keyBytes) then Outcome(Failure(EncryptionFailed), s1)
      else
        match p.seal(keyBytes, iv, p.encodeUtf8(plaintext))
        case None => Outcome(Failure(EncryptionFailed), s1)
        case Some(ct) =>
          HexRoundTrip(ct);
          HexRoundTrip(iv);
          Outcome(Success(EncryptedRecord(BytesToHex(ct), BytesToHex(iv))), s1)
  }

  /** Import `keyBytes`, decode the hex inputs and open the ciphertext. */
  function OpenWith(p: Platform, keyBytes: seq<byte>, ciphertext: string, iv: string): (r: Result<string, CryptoError>)
    requires IsHex(ciphertext) && IsHex(iv)
    ensures r.Failure? ==> r.error == DecryptionFailed
    ensures !ImportableKey(keyBytes) ==> r.Failure?
    ensures r.Success? ==> p.open(keyBytes, HexToBytes(iv), HexToBytes(ciphertext)).Some?
    ensures r.Success? ==> r.value == p.decodeUtf8(p.open(keyBytes, HexToBytes(iv), HexToBytes(ciphertext)).value)
    ensures ImportableKey(keyBytes) && p.open(keyBytes, HexToBytes(iv), HexToBytes(ciphertext)).Some? ==> r.Success?
  {
    if !ImportableKey(keyBytes) then Failure(DecryptionFailed)
    else
      match p.open(keyBytes, HexToBytes(iv), HexToBytes(ciphertext))
      case None => Failure(DecryptionFailed)
      case Some(m) => Success(p.decodeUtf8(m))
  }

  /** `decrypt`: fetch (or create) the key and open the record with it. Every
      failure becomes `DecryptionFailed`; no partial plaintext is returned. */
  function Decrypt(s: Storage, p: Platform, random: seq<byte>, ciphertext: string, iv: string)
    : (r: Outcome<string>)
    requires WellFormed(s)
    requires |random| == KeyBytes && IsHex(ciphertext) && IsHex(iv)
    ensures r.result.Failure? ==> r.result.error == DecryptionFailed
    ensures !KeyAbsent(s) ==> r == Outcome(OpenWith(p, HexToBytes(s.entries[KeyEntry]), ciphertext, iv), s)
    ensures KeyAbsent(s) && !s.writable ==> r == Outcome(Failure(DecryptionFailed), s)
    ensures KeyAbsent(s) && s.writable ==>
      && (exists key :: IsFreshKey(key, random) && StoredAs(s, r.storage, key))
      && r.result == OpenWith(p, random, ciphertext, iv)
    ensures WellFormed(r.storage)
  {
    match GetEncryptionKey(s, random)
    case Failure(_) => Outcome(Failure(DecryptionFailed), s)
    case Success(KeyFetch(key, s1)) => Outcome(OpenWith(p, HexToBytes(key), ciphertext, iv), s1)
  }

  /** With a sound platform and no rotation in between, decrypting what was
      encrypted gives the plaintext back and leaves the storage alone. */
  lemma EncryptDecryptRoundTrip(s: Storage, p: Platform, random1: seq<byte>, iv: seq<byte>,
                                plaintext: string, random2: seq<byte>)
    requires Sound(p) && WellFormed(s)
    requires |random1| == KeyBytes && |iv| == IvBytes && |random2| == KeyBytes
    requires Encrypt(s, p, random1, iv, plaintext).result.Success?
    ensures var e := Encrypt(s, p, random1, iv, plaintext);
      Decrypt(e.storage, p, random2, e.result.value.ciphertext, e.result.value.iv)
        == Outcome(Success(plaintext), e.storage)
  {
    var e := Encrypt(s, p, random1, iv, plaintext);
    var f := GetEncryptionKey(s, random1).value;
    var keyBytes := HexToBytes(f.key);
    var m := p.encodeUtf8(plaintext);
    var ct := p.seal(keyBytes, iv, m).value;
    HexRoundTrip(ct);
    HexRoundTrip(iv);
    assert e.result.value == EncryptedRecord(BytesToHex(ct), BytesToHex(iv));
    assert p.open(keyBytes, iv, ct) == Some(m);
  }

  /** Decryption always uses the key stored at the time of the call: after a
      successful rotation it opens records with the new key only, so records
      sealed under the old key are no longer opened with it. */
  lemma DecryptAfterRotationUsesNewKey(s: Storage, p: Platform, random: seq<byte>,
                                       random2: seq<byte>, ciphertext: string, iv: string)
    requires WellFormed(s) && |random| == KeyBytes && |random2| == KeyBytes
    requires IsHex(ciphertext) && IsHex(iv)
    requires RotateEncryptionKey(s, random).status == Rotated
    ensures var s2 := RotateEncryptionKey(s, random).storage;
      Decrypt(s2, p, random2, ciphertext, iv) == Outcome(OpenWith(p, random, ciphertext, iv), s2)
  {
    HexRoundTrip(random);
  }

  /** Encrypting also uses the current key: after a rotation the record is
      sealed under the new key bytes. */
  lemma EncryptAfterRotationUsesNewKey(s: Storage, p: Platform, random: seq<byte>,
                                       random2: seq<byte>, iv: seq<byte>, plaintext: string)
    requires WellFormed(s) && |random| == KeyBytes && |random2| == KeyBytes && |iv| == IvBytes
    requires RotateEncryptionKey(s, random).status == Rotated
    requires p.seal(random, iv, p.encodeUtf8(plaintext)).Some?
    ensures var s2 := RotateEncryptionKey(s, random).storage;
      Encrypt(s2, p, random2, iv, plaintext).result
        == Success(EncryptedRecord(BytesToHex(p.seal(random, iv, p.encodeUtf8(plaintext)).value), BytesToHex(iv)))
  {
    HexRoundTrip(random);
  }
}

=== FILE: file_upload.dfy ===
/** The upload checks of the file picker (src/components/upload/FileUpload.tsx):
    file count, file size and file type, in that order, before the selection
    is replaced and handed to the upload callback. */
module FileUpload {
  import opened Options
  import opened Seqs
  import opened Text

  /** What the checks see of a browser `File`: its name and size in bytes. */
  datatype FileInfo = FileInfo(name: string, size: nat)

  /** The props as a caller passes them; `None` is an omitted prop. */
  datatype GivenProps = GivenProps(
    maxFiles: Option<nat>, maxSize: Option<nat>, accept: Option<string>, hasOnUpload: bool)

  /** The props in effect. `maxSize` is in megabytes. */
  datatype Props = Props(maxFiles: nat, maxSize: nat, accept: string, hasOnUpload: bool)

  const DefaultMaxFiles: nat := 5
  const DefaultMaxSize: nat := 10
  const DefaultAccept: string := ".csv,.xlsx,.json,.xml"

  /** Default parameter values replace omitted props only. */
  function Resolve(given: GivenProps): (p: Props)
    ensures given.maxFiles.None? ==> p.maxFiles == DefaultMaxFiles
    ensures given.maxSize.None? ==> p.maxSize == DefaultMaxSize
    ensures given.accept.None? ==> p.accept == DefaultAccept
    ensures given.maxFiles.Some? ==> p.maxFiles == given.maxFiles.value
    ensures given.maxSize.Some? ==> p.maxSize == given.maxSize.value
    ensures given.accept.Some? ==> p.accept == given.accept.value
    ensures p.hasOnUpload == given.hasOnUpload
  {
    Props(given.maxFiles.GetOr(DefaultMaxFiles), given.maxSize.GetOr(DefaultMaxSize),
          given.accept.GetOr(DefaultAccept), given.hasOnUpload)
  }

  /** The largest accepted size in bytes: `maxSize` mebibytes. */
  function SizeLimit(p: Props): nat {
    p.maxSize * 1024 * 1024
  }

  /** The file's extension as the check computes it: a dot, then the text
      after the name's last dot, lower-cased. A name without a dot yields
      a dot and the whole name. */
  function Extension(name: string): (ext: string)
    ensures |ext| >= 1 && ext[0] == '.'
    ensures '.' !in ext[1..]
    ensures IsLowerCase(ext[1..])
  {
    var pieces := Split(name, '.');
    var last := pieces[|pieces| - 1];
    LowerIsLowerCase(last);
    assert ("." + Lower(last))[1..] == Lower(last);
    "." + Lower(last)
  }

  /** The accepted types, split at commas with no trimming or case folding. */
  function AcceptedTypes(p: Props): seq<string> {
    Split(p.accept, ',')
  }

  predicate TypeAccepted(p: Props, f: FileInfo) {
    Extension(f.name) in AcceptedTypes(p)
  }

  /** Why a batch was refused; each refusal also shows a toast. */
  datatype Rejection = TooManyFiles | TooLarge | InvalidType

  /** The component state after a batch: the selected files, what the upload
      callback received (if it was called) and the refusal (if any). */
  datatype Handled = Handled(selected: seq<FileInfo>, delivered: Option<seq<FileInfo>>, rejected: Option<Rejection>)

  predicate SizesOk(p: Props, files: seq<FileInfo>) {
    forall i :: 0 <= i < |files| ==> files[i].size <= SizeLimit(p)
  }

  /** The type check is skipped when `accept` is empty. */
  predicate TypesOk(p: Props, files: seq<FileInfo>) {
    p.accept == [] || forall i :: 0 <= i < |files| ==> TypeAccepted(p, files[i])
  }

  /** `handleFiles` applied to the current selection `selected`. */
  function HandleFiles(p: Props, selected: seq<FileInfo>, files: seq<FileInfo>): (r: Handled)
    ensures r.rejected.None? <==> |files| <= p.maxFiles && SizesOk(p, files) && TypesOk(p, files)
    ensures r.rejected == Some(TooManyFiles) <==> |files| > p.maxFiles
    ensures r.rejected == Some(TooLarge) <==> |files| <= p.maxFiles && !SizesOk(p, files)
    ensures r.rejected.Some? ==> r.selected == selected && r.delivered.None?
    ensures r.rejected.None? ==> r.selected == files && (r.delivered.Some? <==> p.hasOnUpload)
    ensures r.delivered.Some? ==> r.delivered.value == files
  {
    if |files| > p.maxFiles then Handled(selected, None, Some(TooManyFiles))
    else if Count((f: FileInfo) => f.size > SizeLimit(p), files) > 0 then
      Handled(selected, None, Some(TooLarge))
    else if p.accept != [] && Count((f: FileInfo) => !TypeAccepted(p, f), files) > 0 then
      Handled(selected, None, Some(InvalidType))
    else
      Handled(files, if p.hasOnUpload then Some(files) else None, None)
  }

  /** The size limit is inclusive: a file of exactly `maxSize` MB passes. */
  lemma ExactLimitPasses(p: Props, f: FileInfo)
    requires f.size == p.maxSize * 1024 * 1024
    requires p.maxFiles >= 1 && p.accept == []
    ensures HandleFiles(p, [], [f]).rejected.None?
  {
  }

  /** Fewer files never turn an accepted batch into a refused one. */
  lemma AcceptedPrefixIsAccepted(p: Props, selected: seq<FileInfo>, files: seq<FileInfo>, k: nat)
    requires k <= |files|
    requires HandleFiles(p, selected, files).rejected.None?
    ensures HandleFiles(p, selected, files[..k]).rejected.None?
  {
    assert forall i :: 0 <= i < k ==> files[..k][i] == files[i];
  }

  /** The last piece of a split is the text after the last separator. */
  lemma {:induction false} SplitLast(x: string, sep: char, b: string)
    requires sep !in b
    ensures |Split(x + [sep] + b, sep)| >= 2
    ensures Split(x + [sep] + b, sep)[|Split(x + [sep] + b, sep)| - 1] == b
    decreases |x|
  {
    var s := x + [sep] + b;
    if |x| == 0 {
      SplitAtFirst(x, sep, b);
      SplitWithoutSeparator(b, sep);
    } else {
      assert s[1..] == x[1..] + [sep] + b;
      SplitLast(x[1..], sep, b);
    }
  }

  /** The extension of `base.ext` is `.ext`, lower-cased, whatever dots `base` holds. */
  lemma ExtensionAfterLastDot(base: string, ext: string)
    requires '.' !in ext
    ensures Extension(base + "." + ext) == "." + Lower(ext)
  {
    SplitLast(base, '.', ext);
  }

  /** A name without a dot counts as its own extension, so a file named
      `csv` passes a `.csv` filter. */
  lemma DotlessNameIsItsOwnExtension(name: string)
    requires '.' !in name
    ensures Extension(name) == "." + Lower(name)
  {
    SplitWithoutSeparator(name, '.');
  }

  /** The default filter accepts exactly the four listed extensions. */
  lemma DefaultFilter()
    ensures AcceptedTypes(Resolve(GivenProps(None, None, None, false))) == [".csv", ".xlsx", ".json", ".xml"]
  {
    var pieces := [".csv", ".xlsx", ".json", ".xml"];
    assert DefaultAccept == Join(pieces, ",");
    SplitJoin(pieces, ',');
  }

  /** The type check ignores the case of the extension. */
  lemma ExtensionIgnoresCase(base: string, ext: string)
    requires '.' !in ext
    ensures Extension(base + "." + ext) == Extension(base + "." + Lower(ext))
  {
    assert forall i :: 0 <= i < |ext| ==> Lower(ext)[i] != '.';
    ExtensionAfterLastDot(base, ext);
    ExtensionAfterLastDot(base, Lower(ext));
    LowerIsLowerCase(Lower(ext));
    LowerIsLowerCase(ext);
  }
}

=== FILE: notifications_dropdown.dfy ===
/** The notification bell (src/components/layout/NotificationsDropdown.tsx):
    the unread badge and the read/dismiss operations on the list. */
module NotificationsDropdown {
  import opened Seqs

  datatype NotificationType = Alert | Info | Warning

  datatype Notification = Notification(id: int, kind: NotificationType, message: string, time: string, isRead: bool)

  /** The dropdown's state: the notifications and whether the popover is open. */
  datatype Dropdown = Dropdown(notifications: seq<Notification>, isOpen: bool)

  predicate IsUnread(n: Notification) {
    !n.isRead
  }

  /** `unreadCount`, the number on the bell. */
  function UnreadCount(ns: seq<Notification>): (k: nat)
    ensures k == |set i | 0 <= i < |ns| && !ns[i].isRead|
    ensures k <= |ns|
    ensures k == 0 <==> forall i :: 0 <= i < |ns| ==> ns[i].isRead
  {
    assert IndicesWhere(IsUnread, ns) == set i | 0 <= i < |ns| && !ns[i].isRead;
    Count(IsUnread, ns)
  }

  function Read(n: Notification): Notification {
    n.(isRead := true)
  }

  /** `markAllAsRead`: every notification read, nothing else changed. */
  function MarkAllAsRead(ns: seq<Notification>): (r: seq<Notification>)
    ensures |r| == |ns|
    ensures forall i :: 0 <= i < |ns| ==> r[i].isRead && r[i] == ns[i].(isRead := true)
    ensures UnreadCount(r) == 0
  {
    Map(Read, ns)
  }

  /** `dismissNotification(id)`: drop the entries with that id. */
  function Dismiss(ns: seq<Notification>, id: int): (r: seq<Notification>)
    ensures forall i :: 0 <= i < |r| ==> r[i].id != id && r[i] in ns
    ensures forall i :: 0 <= i < |ns| ==> (ns[i] in r <==> ns[i].id != id)
    ensures forall n | n in multiset(ns) :: multiset(r)[n] == if n.id != id then multiset(ns)[n] else 0
    ensures IsSubsequence(r, ns)
  {
    FilterIsSubsequence((n: Notification) => n.id != id, ns);
    FilterMultiplicity((n: Notification) => n.id != id, ns);
    Filter((n: Notification) => n.id != id, ns)
  }

  function ReadIfId(id: int): Notification -> Notification {
    (n: Notification) => if n.id == id then n.(isRead := true) else n
  }

  /** `markAsRead(id)`: the entries with that id become read, and the
      popover closes (the navigation to the alerts page is left out). */
  function MarkAsRead(d: Dropdown, id: int): (r: Dropdown)
    ensures !r.isOpen
    ensures |r.notifications| == |d.notifications|
    ensures forall i :: 0 <= i < |d.notifications| ==>
      (if d.notifications[i].id == id
       then r.notifications[i] == d.notifications[i].(isRead := true)
       else r.notifications[i] == d.notifications[i])
  {
    Dropdown(Map(ReadIfId(id), d.notifications), false)
  }

  /** Marking everything read twice is the same as once. */
  lemma MarkAllAsReadIdempotent(ns: seq<Notification>)
    ensures MarkAllAsRead(MarkAllAsRead(ns)) == MarkAllAsRead(ns)
  {
  }

  /** Dismissing never raises the unread count. */
  lemma DismissNeverRaisesUnread(ns: seq<Notification>, id: int)
    ensures UnreadCount(Dismiss(ns, id)) <= UnreadCount(ns)
  {
    DismissCount(ns, id);
  }

  lemma {:induction false} DismissCount(ns: seq<Notification>, id: int)
    ensures Count(IsUnread, Filter((n: Notification) => n.id != id, ns)) <= Count(IsUnread, ns)
    decreases |ns|
  {
    if |ns| > 0 {
      DismissCount(ns[1..], id);
    }
  }

  /** Marking one read never raises the unread count. */
  lemma MarkAsReadNeverRaisesUnread(d: Dropdown, id: int)
    ensures UnreadCount(MarkAsRead(d, id).notifications) <= UnreadCount(d.notifications)
  {
    CountAfterMap(IsUnread, ReadIfId(id), d.notifications);
  }

  /** The bell starts with four notifications, two unread (ids 1 and 2). */
  const Sample: seq<Notification> := [
    Notification(1, Alert, "High severity alert: Duplicate invoice detected", "2 min ago", false),
    Notification(2, Warning, "New unmatched transaction requires review", "15 min ago", false),
    Notification(3, Info, "Weekly transaction report is ready for download", "1 hour ago", true),
    Notification(4, Alert, "Suspicious activity detected in vendor account", "3 hours ago", true)]

  lemma SampleHasTwoUnread()
    ensures UnreadCount(Sample) == 2
  {
    assert Filter(IsUnread, Sample) == Sample[..2] by {
      assert Sample[2..] == [Sample[2], Sample[3]];
    }
  }
}

=== FILE: options.dfy ===
/** Optional values and results with an error, used for the source's optional
    fields (`field?: T`, `T | null`) and for operations that throw or refuse. */
module Options {

  /** A value that may be absent: `undefined` or `null` in the source. */
  datatype Option<+T> = None | Some(value: T) {

    /** The value, or `default` when absent (the source's `x ?? d`). */
    function GetOr(default: T): T {
      match this
      case Some(v) => v
      case None => default
    }
  }

  /** The outcome of an operation that either returns a value or fails. */
  datatype Result<+T, +E> = Success(value: T) | Failure(error: E)

  /** JavaScript truthiness of an optional string: absent and "" are falsy. */
  predicate TruthyString(s: Option<string>) {
    s.Some? && s.value != ""
  }

  /** JavaScript truthiness of an optional boolean: absent and false are falsy. */
  predicate TruthyBool(b: Option<bool>) {
    b == Some(true)
  }
}

=== FILE: protected_route.dfy ===
/** The allow/redirect decision of the route guard
    (src/components/auth/ProtectedRoute.tsx), without rendering or toasts. */
module ProtectedRoute {
  import opened Options
  import opened RolePermissions

  /** Why the guard sent the user away; each denial also shows a toast. */
  datatype Denial = NotAuthenticated | RoleNotAllowed | PermissionDenied

  /** Render the protected page, or redirect (with `replace`) to `to`. */
  datatype Decision = Render | Redirect(to: string, why: Denial)

  /** The page every denial redirects to. */
  const HomePath: string := "/"

  /** The role check: absent or empty `requiredRoles` imposes nothing;
      otherwise the role's name must be listed (`includes`, exact strings). */
  predicate RoleCheckPasses(role: Role, requiredRoles: Option<seq<string>>) {
    requiredRoles.None? || |requiredRoles.value| == 0 || RoleName(role) in requiredRoles.value
  }

  /** The permission check: an absent `requiredPermission` imposes nothing. */
  predicate PermissionCheckPasses(role: Role, requiredPermission: Option<Permission>) {
    requiredPermission.None? || CheckPermission(role, requiredPermission.value)
  }

  /** The guard's decision for the current user's role (None: nobody is
      logged in). The checks run in order: authentication, role, permission. */
  function Decide(current: Option<Role>, requiredRoles: Option<seq<string>>,
                  requiredPermission: Option<Permission>): (d: Decision)
    ensures d.Redirect? ==> d.to == HomePath
    ensures d == Render <==>
      current.Some? && RoleCheckPasses(current.value, requiredRoles)
      && PermissionCheckPasses(current.value, requiredPermission)
    ensures current.None? ==> d == Redirect(HomePath, NotAuthenticated)
    ensures current.Some? && !RoleCheckPasses(current.value, requiredRoles) ==>
      d == Redirect(HomePath, RoleNotAllowed)
    ensures d == Redirect(HomePath, PermissionDenied) <==>
      current.Some? && RoleCheckPasses(current.value, requiredRoles)
      && !PermissionCheckPasses(current.value, requiredPermission)
  {
    match current
    case None => Redirect(HomePath, NotAuthenticated)
    case Some(role) =>
      if requiredRoles.Some? && |requiredRoles.value| > 0 && RoleName(role) !in requiredRoles.value then
        Redirect(HomePath, RoleNotAllowed)
      else if requiredPermission.Some? && !CheckPermission(role, requiredPermission.value) then
        Redirect(HomePath, PermissionDenied)
      else
        Render
  }

  /** With nobody logged in every guard redirects, whatever it requires. */
  lemma NoUserIsRedirected(requiredRoles: Option<seq<string>>, requiredPermission: Option<Permission>)
    ensures Decide(None, requiredRoles, requiredPermission) == Redirect(HomePath, NotAuthenticated)
  {
  }

  /** An Administrator passes every guard that specifies only a permission. */
  lemma AdministratorPassesPermissionGuards(requiredPermission: Option<Permission>)
    ensures Decide(Some(Administrator), None, requiredPermission) == Render
    ensures Decide(Some(Administrator), Some([]), requiredPermission) == Render
  {
  }

  /** A guard with a non-empty role list that does not name the role denies,
      whatever permission it also asks for: the role check comes first. */
  lemma UnlistedRoleIsDenied(role: Role, roles: seq<string>, requiredPermission: Option<Permission>)
    requires |roles| > 0 && RoleName(role) !in roles
    ensures Decide(Some(role), Some(roles), requiredPermission) == Redirect(HomePath, RoleNotAllowed)
  {
  }

  /** Role names are exact: a differently-cased entry in the list does not match. */
  lemma RoleNamesAreCaseSensitive()
    ensures Decide(Some(Administrator), Some(["administrator"]), None) == Redirect(HomePath, RoleNotAllowed)
  {
    assert RoleName(Administrator)[0] != "administrator"[0];
  }

  /** Every role has a non-empty name, so the source's "verifying permissions"
      branch (taken when the current user has no role) is never reached. */
  lemma RoleNamesAreNonEmpty(role: Role)
    ensures |RoleName(role)| > 0
  {
  }
}

=== FILE: role_permissions.dfy ===
/** The permission engine: the five roles, the nine permission keys, the
    static role-to-permission table, and the two identity checks on e-mail
    addresses (src/utils/rolePermissions.ts, types from src/types/user.ts). */
module RolePermissions {
  import Text

  /** `UserRole`: a closed set of five roles. */
  datatype Role = Administrator | Executive | Manager | Specialist | Analyst

  /** The keys of `RolePermission['permissions']`. */
  datatype Permission =
    | Create | Read | Update | Delete | Import | Export
    | AssignTasks | ReviewAlerts | HandleCases

  /** The role as the string the source uses for it (compared against
      `requiredRoles` by the route guard). */
  function RoleName(r: Role): string {
    match r
    case Administrator => "Administrator"
    case Executive => "Executive"
    case Manager => "Manager"
    case Specialist => "Specialist"
    case Analyst => "Analyst"
  }

  const AllRoles: set<Role> := {Administrator, Executive, Manager, Specialist, Analyst}

  const AllPermissions: set<Permission> :=
    {Create, Read, Update, Delete, Import, Export, AssignTasks, ReviewAlerts, HandleCases}

  /** The approved organisational suffix for identities. */
  const ApprovedSuffix: string := "@trialcorp.com"

  /** The distinguished super-admin identity. */
  const SuperAdminEmail: string := "admin1@trialcorp.com"

  /** `RolePermission['permissions']`: one flag per permission key. A record
      rather than a map, so that every row has an entry for every key by
      construction. The keys `import` and `export` are
      spelled `importData` and `exportData`, both being Dafny keywords. */
  datatype PermissionSet = PermissionSet(
    create: bool, read: bool, update: bool, delete: bool, importData: bool,
    exportData: bool, assignTasks: bool, reviewAlerts: bool, handleCases: bool)
  {
    /** The flag stored for key `p`. */
    function Get(p: Permission): bool {
      match p
      case Create => create
      case Read => read
      case Update => update
      case Delete => delete
      case Import => importData
      case Export => exportData
      case AssignTasks => assignTasks
      case ReviewAlerts => reviewAlerts
      case HandleCases => handleCases
    }
  }

  /** `rolePermissions`: the row of each role. */
  function Table(role: Role): (row: PermissionSet)
    ensures row.read && row.exportData
    ensures row.create <==> role == Administrator
    ensures row.delete <==> role == Administrator
    ensures row.update <==> role in {Administrator, Manager, Analyst}
    ensures row.importData <==> role in {Administrator, Manager, Specialist}
    ensures row.assignTasks <==> role in {Administrator, Manager}
    ensures row.reviewAlerts <==> role in {Administrator, Manager, Specialist}
    ensures row.handleCases <==> role in {Administrator, Analyst}
  {
    match role
    case Administrator => PermissionSet(
      create := true, read := true, update := true, delete := true, importData := true,
      exportData := true, assignTasks := true, reviewAlerts := true, handleCases := true)
    case Executive => PermissionSet(
      create := false, read := true, update := false, delete := false, importData := false,
      exportData := true, assignTasks := false, reviewAlerts := false, handleCases := false)
    case Manager => PermissionSet(
      create := false, read := true, update := true, delete := false, importData := true,
      exportData := true, assignTasks := true, reviewAlerts := true, handleCases := false)
    case Specialist => PermissionSet(
      create := false, read := true, update := false, delete := false, importData := true,
      exportData := true, assignTasks := false, reviewAlerts := true, handleCases := false)
    case Analyst => PermissionSet(
      create := false, read := true, update := true, delete := false, importData := false,
      exportData := true, assignTasks := false, reviewAlerts := false, handleCases := true)
  }

  /** `checkPermission`: the table entry for the role and the key. */
  function CheckPermission(role: Role, p: Permission): (allowed: bool)
    ensures role == Administrator ==> allowed
    ensures p == Read || p == Export ==> allowed
    ensures p == Create || p == Delete ==> (allowed <==> role == Administrator)
    ensures role == Executive ==> (allowed <==> p == Read || p == Export)
  {
    Table(role).Get(p)
  }

  /** The two closed sets are listed in full by `AllRoles` and `AllPermissions`. */
  lemma EnumerationsComplete(r: Role, p: Permission)
    ensures r in AllRoles && p in AllPermissions
  {
  }

  /** The permissions a role is granted. */
  function Granted(role: Role): set<Permission> {
    set p | p in AllPermissions && CheckPermission(role, p)
  }

  /** The table, row by row, as the sets of granted keys. */
  lemma GrantedSets()
    ensures Granted(Administrator) == AllPermissions
    ensures Granted(Executive) == {Read, Export}
    ensures Granted(Manager) == {Read, Update, Import, Export, AssignTasks, ReviewAlerts}
    ensures Granted(Specialist) == {Read, Import, Export, ReviewAlerts}
    ensures Granted(Analyst) == {Read, Update, Export, HandleCases}
  {
    GrantedRow(Administrator, AllPermissions);
    GrantedRow(Executive, {Read, Export});
    GrantedRow(Manager, {Read, Update, Import, Export, AssignTasks, ReviewAlerts});
    GrantedRow(Specialist, {Read, Import, Export, ReviewAlerts});
    GrantedRow(Analyst, {Read, Update, Export, HandleCases});
  }

  lemma GrantedRow(r: Role, keys: set<Permission>)
    requires forall p: Permission :: CheckPermission(r, p) <==> p in keys
    ensures Granted(r) == keys
  {
    forall p: Permission
      ensures p in Granted(r) <==> p in keys
    {
      EnumerationsComplete(r, p);
    }
  }

  /** The fixture facts the table is known by. */
  lemma CheckPermissionExamples()
    ensures CheckPermission(Manager, Import)
    ensures !CheckPermission(Manager, Delete)
    ensures CheckPermission(Analyst, HandleCases)
    ensures !CheckPermission(Analyst, Delete)
    ensures !CheckPermission(Executive, Create)
  {
  }

  /** Every role's grants are within Administrator's; Executive's are within
      every role's; Specialist's are within Manager's. */
  lemma GrantedOrdering(role: Role)
    ensures Granted(role) <= Granted(Administrator)
    ensures Granted(Executive) <= Granted(role)
    ensures Granted(Specialist) <= Granted(Manager)
  {
    GrantedSets();
  }

  /** `isValidEmail`: a literal, case-sensitive suffix test. */
  predicate IsValidEmail(email: string)
    ensures IsValidEmail(email) <==> exists local :: email == local + ApprovedSuffix
  {
    Text.EndsWithIff(email, ApprovedSuffix);
    Text.EndsWith(email, ApprovedSuffix)
  }

  /** `isAdmin`: exact equality with the super-admin literal. The
      super-admin identity is itself an acceptable identity. */
  predicate IsAdmin(email: string)
    ensures IsAdmin(email) ==> IsValidEmail(email)
  {
    assert email == SuperAdminEmail ==> email[|email| - |ApprovedSuffix|..] == ApprovedSuffix;
    email == SuperAdminEmail
  }

  /** Near-misses are rejected: the check does not fold case and does not
      accept other domains. */
  lemma EmailCheckExamples()
    ensures IsValidEmail("user@trialcorp.com")
    ensures !IsValidEmail("X@TRIALCORP.COM")
    ensures !IsValidEmail("a@trialcorp.co.zw")
    ensures !IsValidEmail("user@other.com")
    ensures !IsAdmin("Admin1@trialcorp.com")
    ensures !IsAdmin("admin1@trialcorp.com ")
  {
    var s := "X@TRIALCORP.COM";
    assert s[|s| - |ApprovedSuffix|..][1] == 'T';
    var z := "a@trialcorp.co.zw";
    assert z[|z| - 1] == 'w';
    var o := "user@other.com";
    assert o[|o| - |ApprovedSuffix|..][1] != ApprovedSuffix[1];
  }
}

=== FILE: search_utils.dfy ===
/** Case search (src/utils/searchUtils.ts): a case-insensitive substring
    search over a case's id and text fields. */
module SearchUtils {
  import opened Options
  import opened Seqs
  import opened Text

  /** The fields the search can see. `amount` is carried but never searched. */
  datatype SearchableCase = SearchableCase(
    id: int,
    title: string,
    status: string,
    assignedDate: Option<string>,
    assignedTo: Option<string>,
    supplier: Option<string>,
    amount: Option<int>,
    reference: Option<string>)

  /** The search term a query turns into: lower-cased, then trimmed. */
  function Normalize(query: string): (term: string)
    ensures IsLowerCase(term)
    ensures |term| <= |query|
    ensures exists i, j ::
      && 0 <= i <= j <= |query|
      && term == Lower(query)[i..j]
      && AllWhitespace(Lower(query)[..i])
      && AllWhitespace(Lower(query)[j..])
    ensures |term| > 0 ==> !IsWhitespace(term[0]) && !IsWhitespace(term[|term| - 1])
  {
    LowerIsLowerCase(query);
    TrimKeepsLowerCase(Lower(query));
    TrimSpec(Lower(query));
    Trim(Lower(query))
  }

  /** An optional field matches when present and its lower-cased text
      contains the term; an absent field never matches. */
  predicate FieldMatches(field: Option<string>, term: string) {
    field.Some? && Contains(Lower(field.value), term)
  }

  /** The filter applied to each case once the term is non-empty. */
  predicate Matches(c: SearchableCase, term: string) {
    || Contains(IntToDecimal(c.id), term)
    || Contains(Lower(c.title), term)
    || Contains(Lower(c.status), term)
    || FieldMatches(c.assignedDate, term)
    || FieldMatches(c.assignedTo, term)
    || FieldMatches(c.supplier, term)
    || FieldMatches(c.reference, term)
  }

  /** `searchCases`: every case when the term is empty, otherwise the
      matching cases in their original order. */
  function SearchCases(cases: seq<SearchableCase>, query: string): (r: seq<SearchableCase>)
    ensures Normalize(query) == [] ==> r == cases
    ensures |r| <= |cases|
    ensures forall i :: 0 <= i < |r| ==> r[i] in cases
    ensures Normalize(query) != [] ==> forall i :: 0 <= i < |r| ==> Matches(r[i], Normalize(query))
    ensures forall i :: 0 <= i < |cases| ==>
      (cases[i] in r <==> Normalize(query) == [] || Matches(cases[i], Normalize(query)))
    ensures forall c | c in multiset(cases) ::
      multiset(r)[c] == if Normalize(query) == [] || Matches(c, Normalize(query)) then multiset(cases)[c] else 0
  {
    var term := Normalize(query);
    if term == [] then cases
    else
      FilterMultiplicity((c: SearchableCase) => Matches(c, term), cases);
      Filter((c: SearchableCase) => Matches(c, term), cases)
  }

  /** The result keeps the input's order: it is a subsequence of it. */
  lemma SearchIsSubsequence(cases: seq<SearchableCase>, query: string)
    ensures IsSubsequence(SearchCases(cases, query), cases)
  {
    var term := Normalize(query);
    if term != [] {
      FilterIsSubsequence((c: SearchableCase) => Matches(c, term), cases);
    } else {
      SubsequenceReflexive(cases);
    }
  }

  /** Searching the results again with the same query changes nothing. */
  lemma SearchIdempotent(cases: seq<SearchableCase>, query: string)
    ensures SearchCases(SearchCases(cases, query), query) == SearchCases(cases, query)
  {
    var term := Normalize(query);
    if term != [] {
      FilterIdempotent((c: SearchableCase) => Matches(c, term), cases);
    }
  }

  /** Normalizing is idempotent, so a query and its normal form find the same cases:
      case and surrounding whitespace of the query do not matter. */
  lemma NormalizeIdempotent(query: string)
    ensures Normalize(Normalize(query)) == Normalize(query)
    ensures forall cases :: SearchCases(cases, Normalize(query)) == SearchCases(cases, query)
  {
    var t := Normalize(query);
    LowerIsLowerCase(t);
    TrimIdempotent(Lower(query));
  }

  /** A longer term that contains a shorter one finds only cases the shorter
      one finds: refining a query narrows the result. */
  lemma RefiningNarrows(c: SearchableCase, shorter: string, longer: string)
    requires Contains(longer, shorter)
    requires Matches(c, longer)
    ensures Matches(c, shorter)
  {
    if Contains(IntToDecimal(c.id), longer) {
      ContainsTransitive(IntToDecimal(c.id), longer, shorter);
    } else if Contains(Lower(c.title), longer) {
      ContainsTransitive(Lower(c.title), longer, shorter);
    } else if Contains(Lower(c.status), longer) {
      ContainsTransitive(Lower(c.status), longer, shorter);
    } else if FieldMatches(c.assignedDate, longer) {
      ContainsTransitive(Lower(c.assignedDate.value), longer, shorter);
    } else if FieldMatches(c.assignedTo, longer) {
      ContainsTransitive(Lower(c.assignedTo.value), longer, shorter);
    } else if FieldMatches(c.supplier, longer) {
      ContainsTransitive(Lower(c.supplier.value), longer, shorter);
    } else {
      ContainsTransitive(Lower(c.reference.value), longer, shorter);
    }
  }

  /** The amount is never searched: changing it does not change whether a case matches. */
  lemma AmountIsNotSearched(c: SearchableCase, amount: Option<int>, term: string)
    ensures Matches(c.(amount := amount), term) <==> Matches(c, term)
  {
  }

  /** A case is found by its id, whatever its other fields. */
  lemma FoundById(cases: seq<SearchableCase>, i: int)
    requires 0 <= i < |cases|
    ensures cases[i] in SearchCases(cases, IntToDecimal(cases[i].id))
  {
    var q := IntToDecimal(cases[i].id);
    assert IsLowerCase(q);
    LowerIsLowerCase(q);
    assert forall k :: 0 <= k < |q| ==> !IsWhitespace(q[k]);
    assert Normalize(q) == q by {
      TrimSpec(q);
    }
    assert q <= q;
  }
}

=== FILE: seqs.dfy ===
/** The array operations the source relies on (`filter`, `map`, `find`,
    `length` of a filter), stated once over sequences, with the facts about
    them that the rest of the model reuses. */
module Seqs {
  import opened Options

  /** `Array.prototype.filter`: the elements satisfying `p`, in order. */
  function Filter<T>(p: T -> bool, s: seq<T>): (r: seq<T>)
    ensures |r| <= |s|
    ensures forall i :: 0 <= i < |r| ==> p(r[i])
    ensures forall i :: 0 <= i < |r| ==> r[i] in s
    ensures forall i :: 0 <= i < |s| ==> (s[i] in r <==> p(s[i]))
    decreases |s|
  {
    if |s| == 0 then []
    else
      assert forall i :: 1 <= i < |s| ==> s[i] == s[1..][i - 1];
      if p(s[0]) then [s[0]] + Filter(p, s[1..]) else Filter(p, s[1..])
  }

  /** A filter keeps every occurrence of a passing element and none of a
      failing one: its multiset is the input's restricted to `p`. */
  lemma {:induction false} FilterMultiplicity<T>(p: T -> bool, s: seq<T>)
    ensures forall x | x in multiset(s) :: multiset(Filter(p, s))[x] == if p(x) then multiset(s)[x] else 0
    decreases |s|
  {
    if |s| > 0 {
      FilterMultiplicity(p, s[1..]);
      assert s == [s[0]] + s[1..];
    }
  }

  /** The positions of `s` whose element satisfies `p`. */
  function IndicesWhere<T>(p: T -> bool, s: seq<T>): set<int> {
    set i | 0 <= i < |s| && p(s[i])
  }

  /** Appending one element adds its position exactly when it passes. */
  lemma IndicesSnoc<T>(p: T -> bool, a: seq<T>, x: T)
    ensures IndicesWhere(p, a + [x]) == IndicesWhere(p, a) + (if p(x) then {|a|} else {})
  {
    var s := a + [x];
    forall i | 0 <= i < |a|
      ensures s[i] == a[i]
    {
    }
  }

  /** The length of a filter is the number of positions that pass. */
  lemma {:induction false} FilterLength<T>(p: T -> bool, s: seq<T>)
    ensures |Filter(p, s)| == |IndicesWhere(p, s)|
    decreases |s|
  {
    if |s| == 0 {
      assert IndicesWhere(p, s) == {};
    } else {
      var n := |s| - 1;
      var a, x := s[..n], s[n];
      assert s == a + [x];
      var one := if p(x) then 1 else 0;
      FilterAppend(p, a, [x]);
      assert |Filter(p, [x])| == one;
      FilterLength(p, a);
      assert |Filter(p, s)| == |Filter(p, a)| + one;
      IndicesSnoc(p, a, x);
      SnocCardinality(IndicesWhere(p, a), n, p(x));
    }
  }

  /** Adding a position not yet present grows a set of positions by one. */
  lemma SnocCardinality(before: set<int>, n: int, add: bool)
    requires n !in before
    ensures |before + (if add then {n} else {})| == |before| + (if add then 1 else 0)
  {
  }

  /** `xs.filter(p).length`: the number of positions whose element passes. */
  function Count<T>(p: T -> bool, s: seq<T>): (n: nat)
    ensures n == |IndicesWhere(p, s)|
    ensures n <= |s|
    ensures n > 0 <==> exists i :: 0 <= i < |s| && p(s[i])
  {
    var r := Filter(p, s);
    FilterLength(p, s);
    if |r| > 0 then
      assert r[0] in s;
      |r|
    else
      |r|
  }

  /** `Array.prototype.map`. */
  function Map<T, U>(f: T -> U, s: seq<T>): (r: seq<U>)
    ensures |r| == |s|
    ensures forall i :: 0 <= i < |s| ==> r[i] == f(s[i])
  {
    seq(|s|, i requires 0 <= i < |s| => f(s[i]))
  }

  /** `Array.prototype.find`: the first element satisfying `p`, if any. */
  function Find<T>(p: T -> bool, s: seq<T>): (r: Option<T>)
    ensures r.Some? <==> exists i :: 0 <= i < |s| && p(s[i])
    ensures r.Some? ==> exists i :: 0 <= i < |s| && s[i] == r.value && p(s[i]) && forall j :: 0 <= j < i ==> !p(s[j])
    decreases |s|
  {
    if |s| == 0 then None
    else if p(s[0]) then Some(s[0])
    else
      var r := Find(p, s[1..]);
      assert forall i :: 1 <= i < |s| ==> s[i] == s[1..][i - 1];
      r
  }

  /** `a` is obtained from `b` by deleting elements (order is kept). */
  predicate IsSubsequence<T(==)>(a: seq<T>, b: seq<T>)
    decreases |b|
  {
    if |a| == 0 then true
    else if |b| == 0 then false
    else if a[0] == b[0] then IsSubsequence(a[1..], b[1..])
    else IsSubsequence(a, b[1..])
  }

  /** Every sequence is a subsequence of itself. */
  lemma {:induction false} SubsequenceReflexive<T>(s: seq<T>)
    ensures IsSubsequence(s, s)
    decreases |s|
  {
    if |s| > 0 {
      SubsequenceReflexive(s[1..]);
    }
  }

  /** A filter is an order-preserving subsequence of its input. */
  lemma {:induction false} FilterIsSubsequence<T>(p: T -> bool, s: seq<T>)
    ensures IsSubsequence(Filter(p, s), s)
    decreases |s|
  {
    if |s| > 0 {
      FilterIsSubsequence(p, s[1..]);
      var rest := Filter(p, s[1..]);
      if !p(s[0]) && |rest| > 0 {
        assert p(rest[0]);
        assert rest[0] != s[0];
      }
    }
  }

  /** Filtering with the same predicate a second time changes nothing. */
  lemma {:induction false} FilterIdempotent<T>(p: T -> bool, s: seq<T>)
    ensures Filter(p, Filter(p, s)) == Filter(p, s)
    decreases |s|
  {
    if |s| > 0 {
      FilterIdempotent(p, s[1..]);
      if p(s[0]) {
        var rest := Filter(p, s[1..]);
        assert ([s[0]] + rest)[1..] == rest;
      }
    }
  }

  /** When every element passes, the filter returns its input unchanged. */
  lemma {:induction false} FilterAll<T>(p: T -> bool, s: seq<T>)
    requires forall i :: 0 <= i < |s| ==> p(s[i])
    ensures Filter(p, s) == s
    decreases |s|
  {
    if |s| > 0 {
      FilterAll(p, s[1..]);
      assert [s[0]] + s[1..] == s;
    }
  }

  /** When no element passes, the filter is empty. */
  lemma {:induction false} FilterNone<T>(p: T -> bool, s: seq<T>)
    requires forall i :: 0 <= i < |s| ==> !p(s[i])
    ensures Filter(p, s) == []
    decreases |s|
  {
    if |s| > 0 {
      FilterNone(p, s[1..]);
    }
  }

  /** Filtering distributes over concatenation. */
  lemma {:induction false} FilterAppend<T>(p: T -> bool, a: seq<T>, b: seq<T>)
    ensures Filter(p, a + b) == Filter(p, a) + Filter(p, b)
    decreases |a|
  {
    if |a| > 0 {
      assert (a + b)[0] == a[0] && (a + b)[1..] == a[1..] + b;
      FilterAppend(p, a[1..], b);
      if p(a[0]) {
        assert Filter(p, a + b) == [a[0]] + Filter(p, a[1..] + b);
        assert [a[0]] + (Filter(p, a[1..]) + Filter(p, b)) == ([a[0]] + Filter(p, a[1..])) + Filter(p, b);
      } else {
        assert Filter(p, a + b) == Filter(p, a[1..] + b);
      }
    } else {
      assert a + b == b;
    }
  }

  /** If every element passing `p` also passes `q`, there are no more of the former. */
  lemma {:induction false} CountMonotone<T>(p: T -> bool, q: T -> bool, s: seq<T>)
    requires forall i :: 0 <= i < |s| ==> p(s[i]) ==> q(s[i])
    ensures Count(p, s) <= Count(q, s)
    decreases |s|
  {
    if |s| > 0 {
      CountMonotone(p, q, s[1..]);
    }
  }

  /** Counting after a pointwise map: if `f` never turns a non-`p` element
      into a `p` element, the count of `p` cannot grow. */
  lemma {:induction false} CountAfterMap<T>(p: T -> bool, f: T -> T, s: seq<T>)
    requires forall i :: 0 <= i < |s| ==> p(f(s[i])) ==> p(s[i])
    ensures Count(p, Map(f, s)) <= Count(p, s)
    decreases |s|
  {
    if |s| > 0 {
      assert Map(f, s)[1..] == Map(f, s[1..]);
      CountAfterMap(p, f, s[1..]);
    }
  }
}

=== FILE: template_generator.dfy ===
/** The downloadable CSV templates (src/utils/templateGenerator.ts): the CSV
    writer, the three templates, and the lookup behind a download. */
module TemplateGenerator {
  import opened Options
  import opened Seqs
  import opened Text

  /** The lines `generateCSV` writes: the header line, then one line per row,
      cells joined by commas. */
  function CsvLines(headers: seq<string>, rows: seq<seq<string>>): seq<string> {
    [Join(headers, ",")] + Map((row: seq<string>) => Join(row, ","), rows)
  }

  /** `generateCSV`: the lines joined by newlines, no quoting. Whatever the
      cells hold (commas included), as long as none holds a newline the text
      has one line per row plus the header line, each line being its row's
      cells joined verbatim by commas. Reading the text back gives the header
      row and the data rows, provided no cell needs quoting and no row is empty. */
  function GenerateCSV(headers: seq<string>, rows: seq<seq<string>>): (csv: string)
    ensures NoNewline(headers) && (forall i :: 0 <= i < |rows| ==> NoNewline(rows[i])) ==>
      && |Split(csv, '\n')| == |rows| + 1
      && Split(csv, '\n')[0] == Join(headers, ",")
      && forall i :: 0 <= i < |rows| ==> Split(csv, '\n')[i + 1] == Join(rows[i], ",")
    ensures PlainRow(headers) && (forall i :: 0 <= i < |rows| ==> PlainRow(rows[i])) ==>
      ParseCSV(csv) == [headers] + rows
  {
    LinesSplitBack(headers, rows);
    LinesRoundTrip(headers, rows);
    Join(CsvLines(headers, rows), "\n")
  }

  /** No cell of the row holds a newline. */
  predicate NoNewline(row: seq<string>) {
    forall j :: 0 <= j < |row| ==> '\n' !in row[j]
  }

  /** Splitting the joined lines at newlines gives the lines back when no
      cell holds a newline; commas in cells do not matter. */
  lemma LinesSplitBack(headers: seq<string>, rows: seq<seq<string>>)
    ensures NoNewline(headers) && (forall i :: 0 <= i < |rows| ==> NoNewline(rows[i])) ==>
      Split(Join(CsvLines(headers, rows), "\n"), '\n') == CsvLines(headers, rows)
  {
    if NoNewline(headers) && (forall i :: 0 <= i < |rows| ==> NoNewline(rows[i])) {
      var lines := CsvLines(headers, rows);
      forall i | 0 <= i < |lines|
        ensures '\n' !in lines[i]
      {
        if i == 0 {
          JoinAvoids(headers, ",", '\n');
        } else {
          JoinAvoids(rows[i - 1], ",", '\n');
        }
      }
      SplitJoin(lines, '\n');
    }
  }

  /** Reading a CSV text back, with the same (quote-free) conventions. */
  function ParseCSV(text: string): seq<seq<string>> {
    Map((line: string) => Split(line, ','), Split(text, '\n'))
  }

  /** A cell the unquoted format can carry: no comma and no newline. */
  predicate PlainCell(cell: string) {
    ',' !in cell && '\n' !in cell
  }

  /** A row the format can carry: at least one cell, every cell plain
      (an empty row would be read back as one empty cell). */
  predicate PlainRow(row: seq<string>) {
    |row| >= 1 && forall j :: 0 <= j < |row| ==> PlainCell(row[j])
  }

  lemma LineRoundTrip(row: seq<string>)
    requires PlainRow(row)
    ensures Split(Join(row, ","), ',') == row
    ensures '\n' !in Join(row, ",")
  {
    SplitJoin(row, ',');
    JoinAvoids(row, ",", '\n');
  }

  /** Splitting the joined lines at newlines and each line at commas gives
      the rows back when every cell is plain. */
  lemma LinesRoundTrip(headers: seq<string>, rows: seq<seq<string>>)
    ensures PlainRow(headers) && (forall i :: 0 <= i < |rows| ==> PlainRow(rows[i])) ==>
      ParseCSV(Join(CsvLines(headers, rows), "\n")) == [headers] + rows
  {
    if PlainRow(headers) && (forall i :: 0 <= i < |rows| ==> PlainRow(rows[i])) {
      PlainLinesRoundTrip(headers, rows);
    }
  }

  lemma PlainLinesRoundTrip(headers: seq<string>, rows: seq<seq<string>>)
    requires PlainRow(headers)
    requires forall i :: 0 <= i < |rows| ==> PlainRow(rows[i])
    ensures ParseCSV(Join(CsvLines(headers, rows), "\n")) == [headers] + rows
  {
    var lines := CsvLines(headers, rows);
    forall i | 0 <= i < |lines|
      ensures '\n' !in lines[i]
      ensures Split(lines[i], ',') == ([headers] + rows)[i]
    {
      if i == 0 {
        LineRoundTrip(headers);
      } else {
        LineRoundTrip(rows[i - 1]);
      }
    }
    SplitJoin(lines, '\n');
  }

  /** One downloadable template. */
  datatype Template = Template(filename: string, headers: seq<string>, data: seq<seq<string>>)

  const General := Template(
    "general_transaction_data_template.csv",
    ["Transaction ID", "Date", "Amount", "Description", "Category", "Status"],
    [["TRX-001", "2025-04-15", "1250.00", "Office Supplies", "Expenses", "Completed"],
     ["TRX-002", "2025-04-16", "780.50", "Client Meeting", "Entertainment", "Completed"],
     ["TRX-003", "2025-04-18", "2500.00", "Software License", "IT", "Pending"]])

  const BankDeposits := Template(
    "bank_deposits_sales_template.csv",
    ["Date", "Deposit Amount ($)", "Sales Reference ID", "Sales Amount ($)"],
    [["2025-04-10", "4500.00", "SALE-001", "4500.00"],
     ["2025-04-11", "3250.75", "SALE-002", "3200.00"],
     ["2025-04-12", "1800.00", "SALE-003", "1950.00"]])

  const Procurement := Template(
    "procurement_payments_template.csv",
    ["Transaction ID", "Vendor", "Date", "Payment Amount ($)", "Description"],
    [["PRC-001", "Office Depot", "2025-04-05", "450.00", "Office Furniture"],
     ["PRC-002", "Dell", "2025-04-07", "2200.00", "Laptop Computers"],
     ["PRC-003", "Staples", "2025-04-09", "540.00", "Office Supplies"]])

  /** The names an object literal answers for besides its own keys: the
      members of `Object.prototype`. */
  const InheritedNames: set<string> := {
    "constructor", "hasOwnProperty", "isPrototypeOf", "propertyIsEnumerable",
    "toLocaleString", "toString", "valueOf", "__proto__",
    "__defineGetter__", "__defineSetter__", "__lookupGetter__", "__lookupSetter__"}

  /** No template key is an inherited name. */
  lemma TemplateKeysAreOwn(key: string)
    requires key in {"general", "bank-deposits", "procurement"}
    ensures key !in InheritedNames
  {
  }

  /** The own keys of the templates object and what they hold. */
  function Lookup(key: string): (t: Option<Template>)
    ensures t.Some? <==> key in {"general", "bank-deposits", "procurement"}
  {
    if key == "general" then Some(General)
    else if key == "bank-deposits" then Some(BankDeposits)
    else if key == "procurement" then Some(Procurement)
    else None
  }

  /** What a download request ends in: a saved file, the "not found" log,
      or an exception (an inherited member is truthy but has no `headers`). */
  datatype Download = Saved(filename: string, content: string) | NotFound | Threw

  /** `downloadTemplate`. */
  function DownloadTemplate(key: string): (d: Download)
    ensures d.Saved? <==> key in {"general", "bank-deposits", "procurement"}
    ensures d == Threw <==> key in InheritedNames
    ensures d.Saved? ==> d.filename == Lookup(key).value.filename && EndsWith(d.filename, ".csv")
    ensures d.Saved? ==> ParseCSV(d.content) == [Lookup(key).value.headers] + Lookup(key).value.data
  {
    match Lookup(key)
    case Some(t) =>
      LookupWellFormed(key);
      TemplateRoundTrip(t);
      TemplateKeysAreOwn(key);
      Saved(t.filename, GenerateCSV(t.headers, t.data))
    case None => if key in InheritedNames then Threw else NotFound
  }

  /** Every template: a `.csv` file name, plain cells, and data rows as wide
      as the header row (six, four and five columns). */
  predicate WellFormedTemplate(t: Template) {
    && EndsWith(t.filename, ".csv")
    && PlainRow(t.headers)
    && forall i :: 0 <= i < |t.data| ==> PlainRow(t.data[i]) && |t.data[i]| == |t.headers|
  }

  /** A well-formed template's CSV reads back as its header and data rows. */
  lemma TemplateRoundTrip(t: Template)
    requires WellFormedTemplate(t)
    ensures ParseCSV(GenerateCSV(t.headers, t.data)) == [t.headers] + t.data
  {
  }

  /** The pieces of `WellFormedTemplate` for a template of three data rows,
      each of which can be checked on its own. */
  lemma ThreeRowTemplate(t: Template)
    requires EndsWith(t.filename, ".csv") && PlainRow(t.headers) && |t.data| == 3
    requires PlainRow(t.data[0]) && |t.data[0]| == |t.headers|
    requires PlainRow(t.data[1]) && |t.data[1]| == |t.headers|
    requires PlainRow(t.data[2]) && |t.data[2]| == |t.headers|
    ensures WellFormedTemplate(t)
  {
  }

  lemma GeneralWellFormed()
    ensures WellFormedTemplate(General) && |General.headers| == 6
  {
    GeneralHeader();
    GeneralRows();
    ThreeRowTemplate(General);
  }

  lemma GeneralHeader()
    ensures EndsWith(General.filename, ".csv") && PlainRow(General.headers)
  {
  }

  lemma GeneralRows()
    ensures PlainRow(General.data[0]) && PlainRow(General.data[1]) && PlainRow(General.data[2])
  {
    GeneralRow0();
    GeneralRow1();
    GeneralRow2();
  }

  lemma GeneralRow0()
    ensures PlainRow(General.data[0])
  {
  }

  lemma GeneralRow1()
    ensures PlainRow(General.data[1])
  {
  }

  lemma GeneralRow2()
    ensures PlainRow(General.data[2])
  {
  }

  lemma BankDepositsWellFormed()
    ensures WellFormedTemplate(BankDeposits) && |BankDeposits.headers| == 4
  {
    BankDepositsHeader();
    BankDepositsRows();
    ThreeRowTemplate(BankDeposits);
  }

  lemma BankDepositsHeader()
    ensures EndsWith(BankDeposits.filename, ".csv") && PlainRow(BankDeposits.headers)
  {
  }

  lemma BankDepositsRows()
    ensures PlainRow(BankDeposits.data[0]) && PlainRow(BankDeposits.data[1]) && PlainRow(BankDeposits.data[2])
  {
  }

  lemma ProcurementWellFormed()
    ensures WellFormedTemplate(Procurement) && |Procurement.headers| == 5
  {
    ProcurementHeader();
    ProcurementRows();
    ThreeRowTemplate(Procurement);
  }

  lemma ProcurementHeader()
    ensures EndsWith(Procurement.filename, ".csv") && PlainRow(Procurement.headers)
  {
  }

  lemma ProcurementRows()
    ensures PlainRow(Procurement.data[0]) && PlainRow(Procurement.data[1]) && PlainRow(Procurement.data[2])
  {
  }

  /** Every template the lookup finds is well formed. */
  lemma LookupWellFormed(key: string)
    requires Lookup(key).Some?
    ensures WellFormedTemplate(Lookup(key).value)
  {
    if key == "general" {
      GeneralWellFormed();
    } else if key == "bank-deposits" {
      BankDepositsWellFormed();
    } else {
      ProcurementWellFormed();
    }
  }

  /** With no data rows the text is the header line alone. */
  lemma HeaderOnly(headers: seq<string>)
    ensures GenerateCSV(headers, []) == Join(headers, ",")
  {
    assert [Join(headers, ",")] + Map((row: seq<string>) => Join(row, ","), []) == [Join(headers, ",")];
  }
}

=== FILE: text.dfy ===
/** The JavaScript string operations the source uses: `toLowerCase`,
    `trim`, `endsWith`, `includes`, `split` on one character, `join`, and
    `Number.prototype.toString` on integers. Strings are sequences of
    Unicode scalar values. */
module Text {

  /** `toLowerCase` on one character, for the ASCII letters. */
  function LowerChar(c: char): char {
    if 'A' <= c <= 'Z' then (c as int + 32) as char else c
  }

  predicate IsLowerCase(s: string) {
    forall i :: 0 <= i < |s| ==> LowerChar(s[i]) == s[i]
  }

  /** `String.prototype.toLowerCase` (ASCII letters only). */
  function Lower(s: string): (r: string)
    ensures |r| == |s|
    ensures forall i :: 0 <= i < |s| ==> r[i] == LowerChar(s[i])
  {
    seq(|s|, i requires 0 <= i < |s| => LowerChar(s[i]))
  }

  /** Lower-casing is idempotent, and leaves already lower-case text alone. */
  lemma LowerIsLowerCase(s: string)
    ensures IsLowerCase(Lower(s))
    ensures IsLowerCase(s) ==> Lower(s) == s
  {
  }

  /** `String.prototype.endsWith`: a literal, case-sensitive suffix test. */
  predicate EndsWith(s: string, suffix: string) {
    |suffix| <= |s| && s[|s| - |suffix|..] == suffix
  }

  /** A suffix test holds exactly when the text is something followed by the suffix. */
  lemma EndsWithIff(s: string, suffix: string)
    ensures EndsWith(s, suffix) <==> exists x :: s == x + suffix
  {
    if EndsWith(s, suffix) {
      assert s == s[..|s| - |suffix|] + suffix;
    }
    forall x | s == x + suffix
      ensures EndsWith(s, suffix)
    {
      assert s[|x|..] == suffix;
    }
  }

  /** `String.prototype.includes`: `t` occurs in `s` as a contiguous block. */
  predicate Contains(s: string, t: string)
    decreases |s|
  {
    t <= s || (|s| > 0 && Contains(s[1..], t))
  }

  /** `t` occurs in `s` starting at position `i`. */
  predicate OccursAt(s: string, t: string, i: int) {
    0 <= i && i + |t| <= |s| && s[i..i + |t|] == t
  }

  /** The recursive `Contains` agrees with the positional definition of an occurrence. */
  lemma ContainsIff(s: string, t: string)
    ensures Contains(s, t) <==> exists i :: OccursAt(s, t, i)
  {
    if Contains(s, t) {
      ContainsOccurs(s, t);
    }
    forall i | OccursAt(s, t, i)
      ensures Contains(s, t)
    {
      OccursAtContains(s, t, i);
    }
  }

  lemma {:induction false} ContainsOccurs(s: string, t: string)
    requires Contains(s, t)
    ensures exists i :: OccursAt(s, t, i)
    decreases |s|
  {
    if t <= s {
      assert s[0..|t|] == t;
      assert OccursAt(s, t, 0);
    } else {
      ContainsOccurs(s[1..], t);
      var i :| OccursAt(s[1..], t, i);
      forall k | 0 <= k < |t|
        ensures s[i + 1 + k] == t[k]
      {
        assert s[1..][i + k] == s[1..][i..i + |t|][k];
      }
      assert s[i + 1..i + 1 + |t|] == t;
      assert OccursAt(s, t, i + 1);
    }
  }

  lemma {:induction false} OccursAtContains(s: string, t: string, i: int)
    requires OccursAt(s, t, i)
    ensures Contains(s, t)
    decreases i
  {
    if i == 0 {
      assert s[..|t|] == t;
    } else {
      forall k | 0 <= k < |t|
        ensures s[1..][i - 1 + k] == t[k]
      {
        assert s[i + k] == s[i..i + |t|][k];
      }
      assert s[1..][i - 1..i - 1 + |t|] == t;
      OccursAtContains(s[1..], t, i - 1);
    }
  }

  /** An occurrence of an occurrence is an occurrence: a longer search term
      can only be found where a shorter term it contains is found. */
  lemma ContainsTransitive(s: string, t: string, u: string)
    requires Contains(s, t) && Contains(t, u)
    ensures Contains(s, u)
  {
    ContainsIff(s, t);
    ContainsIff(t, u);
    var i :| OccursAt(s, t, i);
    var j :| OccursAt(t, u, j);
    forall k | 0 <= k < |u|
      ensures s[i + j + k] == u[k]
    {
      assert s[i + j + k] == s[i..i + |t|][j + k];
      assert t[j + k] == t[j..j + |u|][k];
    }
    assert s[i + j..i + j + |u|] == u;
    assert OccursAt(s, u, i + j);
    ContainsIff(s, u);
  }

  /** The characters `String.prototype.trim` removes: ECMAScript WhiteSpace
      and LineTerminator code points. */
  predicate IsWhitespace(c: char) {
    || c == '\t' || c == '\n' || c == '\U{000B}' || c == '\U{000C}' || c == '\r' || c == ' '
    || c == '\U{00A0}' || c == '\U{1680}' || ('\U{2000}' <= c <= '\U{200A}')
    || c == '\U{2028}' || c == '\U{2029}' || c == '\U{202F}' || c == '\U{205F}'
    || c == '\U{3000}' || c == '\U{FEFF}'
  }

  predicate AllWhitespace(s: string) {
    forall i :: 0 <= i < |s| ==> IsWhitespace(s[i])
  }

  /** The number of whitespace characters `trim` removes at the start. */
  function LeadingWhitespace(s: string): (k: nat)
    ensures k <= |s|
    ensures AllWhitespace(s[..k])
    ensures k < |s| ==> !IsWhitespace(s[k])
    decreases |s|
  {
    if |s| > 0 && IsWhitespace(s[0]) then
      var k := LeadingWhitespace(s[1..]);
      assert s[..k + 1] == [s[0]] + s[1..][..k];
      1 + k
    else 0
  }

  /** Where the whitespace that `trim` removes at the end begins. */
  function TrailingWhitespace(s: string): (k: nat)
    ensures k <= |s|
    ensures AllWhitespace(s[k..])
    ensures 0 < k ==> !IsWhitespace(s[k - 1])
    decreases |s|
  {
    if |s| > 0 && IsWhitespace(s[|s| - 1]) then
      var k := TrailingWhitespace(s[..|s| - 1]);
      assert forall i :: 0 <= i < |s| - 1 - k ==> s[k..][i] == s[..|s| - 1][k..][i];
      k
    else |s|
  }

  /** `String.prototype.trim`. */
  function Trim(s: string): string {
    var t := s[LeadingWhitespace(s)..];
    t[..TrailingWhitespace(t)]
  }

  /** The trimmed string is a slice of the input, with whitespace only outside
      it and none at either of its ends. */
  lemma TrimSpec(s: string)
    ensures exists i, j :: 0 <= i <= j <= |s| && Trim(s) == s[i..j] && AllWhitespace(s[..i]) && AllWhitespace(s[j..])
    ensures |Trim(s)| > 0 ==> !IsWhitespace(Trim(s)[0]) && !IsWhitespace(Trim(s)[|Trim(s)| - 1])
  {
    var i := LeadingWhitespace(s);
    var t := s[i..];
    var m := TrailingWhitespace(t);
    assert Trim(s) == s[i..i + m];
    assert s[i + m..] == t[m..];
  }

  /** Trimming twice is trimming once. */
  lemma TrimIdempotent(s: string)
    ensures Trim(Trim(s)) == Trim(s)
  {
    var t := Trim(s);
    TrimSpec(s);
    assert LeadingWhitespace(t) == 0;
    assert TrailingWhitespace(t) == |t|;
  }

  /** Trimming a lower-case string leaves it lower-case. */
  lemma TrimKeepsLowerCase(s: string)
    requires IsLowerCase(s)
    ensures IsLowerCase(Trim(s))
  {
    TrimSpec(s);
    var i, j :| 0 <= i <= j <= |s| && Trim(s) == s[i..j];
    assert forall k :: 0 <= k < j - i ==> Trim(s)[k] == s[i + k];
  }

  /** `Array.prototype.join(sep)`. */
  function Join(parts: seq<string>, sep: string): string
    decreases |parts|
  {
    if |parts| == 0 then ""
    else if |parts| == 1 then parts[0]
    else parts[0] + sep + Join(parts[1..], sep)
  }

  /** `String.prototype.split(sep)` for a one-character separator: the pieces
      between separators, always at least one. */
  function Split(s: string, sep: char): (r: seq<string>)
    ensures |r| >= 1
    ensures forall i :: 0 <= i < |r| ==> sep !in r[i]
    decreases |s|
  {
    if |s| == 0 then [""]
    else
      var rest := Split(s[1..], sep);
      if s[0] == sep then [""] + rest else [[s[0]] + rest[0]] + rest[1..]
  }

  /** A string without the separator splits into itself. */
  lemma {:induction false} SplitWithoutSeparator(s: string, sep: char)
    requires sep !in s
    ensures Split(s, sep) == [s]
    decreases |s|
  {
    if |s| > 0 {
      SplitWithoutSeparator(s[1..], sep);
      assert [s[0]] + s[1..] == s;
    }
  }

  /** Splitting at the first separator. */
  lemma {:induction false} SplitAtFirst(a: string, sep: char, b: string)
    requires sep !in a
    ensures Split(a + [sep] + b, sep) == [a] + Split(b, sep)
    decreases |a|
  {
    var s := a + [sep] + b;
    if |a| == 0 {
      assert s == [sep] + b;
      assert s[1..] == b;
    } else {
      assert s[1..] == a[1..] + [sep] + b;
      SplitAtFirst(a[1..], sep, b);
      assert [a[0]] + a[1..] == a;
    }
  }

  /** `join` and `split` are inverse when no piece contains the separator. */
  lemma {:induction false} SplitJoin(parts: seq<string>, sep: char)
    requires |parts| >= 1
    requires forall i :: 0 <= i < |parts| ==> sep !in parts[i]
    ensures Split(Join(parts, [sep]), sep) == parts
    decreases |parts|
  {
    if |parts| == 1 {
      SplitWithoutSeparator(parts[0], sep);
    } else {
      SplitJoin(parts[1..], sep);
      SplitAtFirst(parts[0], sep, Join(parts[1..], [sep]));
      assert [parts[0]] + parts[1..] == parts;
    }
  }

  /** A character absent from every piece and from the separator is absent from the join. */
  lemma {:induction false} JoinAvoids(parts: seq<string>, sep: string, c: char)
    requires c !in sep
    requires forall i :: 0 <= i < |parts| ==> c !in parts[i]
    ensures c !in Join(parts, sep)
    decreases |parts|
  {
    if |parts| > 1 {
      JoinAvoids(parts[1..], sep, c);
    }
  }

  function DigitChar(d: int): (c: char)
    requires 0 <= d < 10
    ensures '0' <= c <= '9'
  {
    (48 + d) as char
  }

  /** `Number.prototype.toString()` of a non-negative integer. */
  function NatToDecimal(n: nat): (r: string)
    ensures |r| >= 1
    ensures forall i :: 0 <= i < |r| ==> '0' <= r[i] <= '9'
  {
    if n < 10 then [DigitChar(n)] else NatToDecimal(n / 10) + [DigitChar(n % 10)]
  }

  /** `Number.prototype.toString()` of an integer: an optional '-' then digits. */
  function IntToDecimal(n: int): (r: string)
    ensures |r| >= 1
    ensures r[0] == '-' <==> n < 0
    ensures forall i :: 0 < i < |r| ==> '0' <= r[i] <= '9'
  {
    if n < 0 then "-" + NatToDecimal(-n) else NatToDecimal(n)
  }
}

=== FILE: transaction_matching.dfy ===
/** The transaction matching table
    (src/components/transactions/TransactionMatchingTable.tsx): the flagged
    filter, the confidence bar colour, the row actions, the row-selection
    toggle and the detail panel under the table. */
module TransactionMatching {
  import opened Options
  import opened Seqs

  /** The record a transaction was matched against. Amounts are left out. */
  datatype MatchedRecord = MatchedRecord(id: string, source: string, date: string)

  /** A row of the table. `status` is kept as the source's string so that
      unrecognised values can be represented. Amounts are left out. */
  datatype Transaction = Transaction(
    id: string, source: string, reference: string, date: string, vendor: string,
    status: string, matchConfidence: int, flagReason: Option<string>, matched: Option<MatchedRecord>)

  predicate IsFlagged(t: Transaction) {
    t.status == "flagged"
  }

  /** The rows shown: only the flagged ones when `showOnlyFlagged`, else all. */
  function FilteredTransactions(txs: seq<Transaction>, showOnlyFlagged: bool): (r: seq<Transaction>)
    ensures !showOnlyFlagged ==> r == txs
    ensures showOnlyFlagged ==> forall i :: 0 <= i < |r| ==> r[i].status == "flagged"
    ensures showOnlyFlagged ==> forall i :: 0 <= i < |txs| ==> (txs[i] in r <==> txs[i].status == "flagged")
    ensures showOnlyFlagged ==> forall t | t in multiset(txs) ::
      multiset(r)[t] == if t.status == "flagged" then multiset(txs)[t] else 0
    ensures IsSubsequence(r, txs)
  {
    if showOnlyFlagged then
      FilterIsSubsequence(IsFlagged, txs);
      FilterMultiplicity(IsFlagged, txs);
      Filter(IsFlagged, txs)
    else
      SubsequenceReflexive(txs);
      txs
  }

  /** The status badge; anything unrecognised is "Unknown". */
  datatype Badge = Matched | PartialMatch | Unmatched | Flagged | Unknown

  function StatusBadge(status: string): (b: Badge)
    ensures b == Unknown <==> status !in {"matched", "partial_match", "unmatched", "flagged"}
    ensures b == Flagged <==> status == "flagged"
  {
    if status == "matched" then Matched
    else if status == "partial_match" then PartialMatch
    else if status == "unmatched" then Unmatched
    else if status == "flagged" then Flagged
    else Unknown
  }

  /** The colour of the confidence bar. */
  datatype Bucket = Red | Yellow | Green

  function Rank(b: Bucket): nat {
    match b
    case Red => 0
    case Yellow => 1
    case Green => 2
  }

  function ConfidenceBucket(confidence: int): (b: Bucket)
    ensures b == Green <==> confidence >= 90
    ensures b == Yellow <==> 70 <= confidence < 90
    ensures b == Red <==> confidence < 70
  {
    if confidence >= 90 then Green else if confidence >= 70 then Yellow else Red
  }

  /** A higher confidence never gets a worse colour. */
  lemma BucketMonotone(a: int, b: int)
    requires a <= b
    ensures Rank(ConfidenceBucket(a)) <= Rank(ConfidenceBucket(b))
  {
  }

  /** The buttons of a row besides "view": confirm, and the flag alert. */
  datatype Actions = Actions(confirm: bool, alert: bool, alertTitle: string)

  function RowActions(t: Transaction): (a: Actions)
    ensures a.confirm <==> t.status == "matched" || t.status == "partial_match"
    ensures a.alert <==> t.status == "flagged"
    ensures !(a.confirm && a.alert)
  {
    var title := if TruthyString(t.flagReason) then t.flagReason.value else "";
    Actions(t.status == "matched" || t.status == "partial_match", t.status == "flagged", title)
  }

  /** Clicking a row: a second click on the selected row clears the selection. */
  function Click(selected: Option<string>, id: string): (r: Option<string>)
    ensures r == None <==> selected == Some(id)
    ensures r != None ==> r == Some(id)
  {
    if selected == Some(id) then None else Some(id)
  }

  /** Two clicks on the same row restore the selection exactly when nothing
      or that same row was selected; from another row's selection they end
      with nothing selected. */
  lemma ClickTwice(selected: Option<string>, id: string)
    ensures Click(Click(selected, id), id) == selected <==> selected.None? || selected == Some(id)
    ensures selected.Some? && selected != Some(id) ==> Click(Click(selected, id), id) == None
  {
  }

  /** What the detail panel under the table shows. */
  datatype Detail = NoPanel | RuleViolation(reason: string) | MatchDetails(record: MatchedRecord) | NoDetails

  /** The panel for the selection: looked up by id in the full list (not the
      filtered one); a flag reason wins over match details. A truthy selection
      that names no row would still render an empty detail row in the source;
      it is collapsed into `NoPanel` on purpose, since the selection is only
      ever set from the id of a listed row. */
  function DetailPanel(txs: seq<Transaction>, selected: Option<string>): (d: Detail)
    ensures !TruthyString(selected) ==> d == NoPanel
    ensures d != NoPanel <==> TruthyString(selected) && exists i :: 0 <= i < |txs| && txs[i].id == selected.value
    ensures d.RuleViolation? ==> d.reason != ""
  {
    if !TruthyString(selected) then NoPanel
    else
      match Find((t: Transaction) => t.id == selected.value, txs)
      case None => NoPanel
      case Some(t) =>
        if TruthyString(t.flagReason) then RuleViolation(t.flagReason.value)
        else if t.matched.Some? then MatchDetails(t.matched.value)
        else NoDetails
  }

  /** The priority of the panel for a transaction found by its id. */
  lemma DetailPriority(txs: seq<Transaction>, i: int)
    requires 0 <= i < |txs| && txs[i].id != ""
    requires forall j :: 0 <= j < |txs| && j != i ==> txs[j].id != txs[i].id
    ensures TruthyString(txs[i].flagReason) ==> DetailPanel(txs, Some(txs[i].id)) == RuleViolation(txs[i].flagReason.value)
    ensures !TruthyString(txs[i].flagReason) && txs[i].matched.Some? ==>
      DetailPanel(txs, Some(txs[i].id)) == MatchDetails(txs[i].matched.value)
    ensures !TruthyString(txs[i].flagReason) && txs[i].matched.None? ==> DetailPanel(txs, Some(txs[i].id)) == NoDetails
  {
    var p := (t: Transaction) => t.id == txs[i].id;
    var f := Find(p, txs);
    assert p(txs[i]);
    var k :| 0 <= k < |txs| && txs[k] == f.value && p(txs[k]) && forall j :: 0 <= j < k ==> !p(txs[j]);
    assert k == i;
  }

  /** The rows of the table as shipped. */
  const Sample: seq<Transaction> := [
    Transaction("TX-98712", "POS System", "INV-2023-4532", "2023-09-15", "Acme Supplies", "matched", 100, None,
                Some(MatchedRecord("BNK-77123", "Bank Statement", "2023-09-16"))),
    Transaction("TX-98713", "Invoice System", "INV-2023-4533", "2023-09-15", "Office Solutions", "matched", 98, None,
                Some(MatchedRecord("BNK-77124", "Bank Statement", "2023-09-17"))),
    Transaction("TX-98714", "Invoice System", "INV-2023-4534", "2023-09-16", "Tech Partners Inc.", "partial_match", 85, None,
                Some(MatchedRecord("BNK-77125", "Bank Statement", "2023-09-18"))),
    Transaction("TX-98715", "POS System", "INV-2023-4535", "2023-09-17", "Global Distribution", "flagged", 0,
                Some("Procurement Rule Violation: Amount exceeds $500"), None),
    Transaction("TX-98716", "Invoice System", "INV-2023-4536", "2023-09-18", "Enterprise Solutions", "flagged", 67,
                Some("Procurement Rule Violation: Amount exceeds $500"),
                Some(MatchedRecord("BNK-77126", "Bank Statement", "2023-09-19"))),
    Transaction("TX-98717", "Bank Deposits", "DEP-2023-0437", "2023-09-20", "Sales Revenue", "flagged", 92,
                Some("Deposit-Sales Mismatch: 8.2% difference"),
                Some(MatchedRecord("SLS-88412", "Sales Records", "2023-09-20")))]

  /** Three of the six sample rows are flagged: the last three. */
  lemma SampleFlagged()
    ensures FilteredTransactions(Sample, true) == Sample[3..]
  {
    FilterNone(IsFlagged, Sample[..3]);
    FilterAll(IsFlagged, Sample[3..]);
    FilterAppend(IsFlagged, Sample[..3], Sample[3..]);
    assert Sample[..3] + Sample[3..] == Sample;
  }
}

=== FILE: user_context.dfy ===
/** The user and case store (src/contexts/UserContext.tsx) as pure state
    transitions over the user list and the global case list. Toasts are
    dropped; a refused call is reported by a `Refused` result and leaves the
    store as it was. */
module UserContext {
  import opened Options
  import opened Text
  import opened Seqs
  import opened RolePermissions
  import opened UserTypes

  /** The domain `generateEmail` appends. */
  const GeneratedDomain: string := "@trialcorp.co.zw"

  /** The data `addUser` receives. The source's type makes both names
      mandatory, but a caller can omit them (the add-user dialog does), so
      they are optional here; a `name` passed in is overwritten and is left out. */
  datatype NewUser = NewUser(
    firstName: Option<string>,
    lastName: Option<string>,
    role: Role,
    status: UserStatus,
    cases: Option<seq<Case>>)

  /** Why a transition did not happen. `NameMissing` stands for the
      TypeError raised by calling a string method on an absent name. */
  datatype Refusal = NameMissing | AlreadyExists(email: string) | PermissionDenied

  /** The result of a transition that may be refused. */
  datatype Change = Applied(users: seq<User>) | Refused(why: Refusal)

  /** The store: the user list and the global case list. */
  datatype Store = Store(users: seq<User>, cases: seq<Case>)

  predicate UniqueIds(users: seq<User>) {
    forall i, j :: 0 <= i < j < |users| ==> users[i].id != users[j].id
  }

  predicate UniqueEmails(users: seq<User>) {
    forall i, j :: 0 <= i < j < |users| ==> users[i].email != users[j].email
  }

  predicate HasEmail(users: seq<User>, email: string) {
    exists i :: 0 <= i < |users| && users[i].email == email
  }

  /** `generateEmail`: the lower-cased first initial, the lower-cased surname
      and the fixed domain. */
  function GenerateEmail(firstName: string, lastName: string): (email: string)
    ensures EndsWith(email, GeneratedDomain)
    ensures |email| == (if firstName == "" then 0 else 1) + |lastName| + |GeneratedDomain|
    ensures IsLowerCase(email[..|email| - |GeneratedDomain|])
    ensures firstName != "" ==> email[0] == LowerChar(firstName[0])
    ensures email[|email| - |GeneratedDomain| - |lastName|..|email| - |GeneratedDomain|] == Lower(lastName)
  {
    var initial := if firstName == "" then "" else firstName[..1];
    var local := Lower(initial) + Lower(lastName);
    LowerIsLowerCase(initial);
    LowerIsLowerCase(lastName);
    assert (local + GeneratedDomain)[..|local|] == local;
    local + GeneratedDomain
  }

  /** A generated address never passes the identity check: it ends in
      ".co.zw", not in the approved "@trialcorp.com". */
  lemma GeneratedEmailIsNeverValid(firstName: string, lastName: string)
    ensures !IsValidEmail(GenerateEmail(firstName, lastName))
  {
    var e := GenerateEmail(firstName, lastName);
    assert e[|e| - 1] == GeneratedDomain[|GeneratedDomain| - 1] == 'w';
  }

  /** The generated address does not depend on the case of the names. */
  lemma GenerateEmailIgnoresCase(firstName: string, lastName: string)
    ensures GenerateEmail(Lower(firstName), Lower(lastName)) == GenerateEmail(firstName, lastName)
  {
    if firstName != "" {
      assert Lower(firstName)[..1] == Lower(firstName[..1]);
      LowerIsLowerCase(firstName[..1]);
    }
    LowerIsLowerCase(lastName);
  }

  /** `Math.max(...users.map(u => u.id), 0)`. */
  function MaxId(users: seq<User>): (m: int)
    ensures m >= 0
    ensures forall i :: 0 <= i < |users| ==> users[i].id <= m
    ensures m == 0 || exists i :: 0 <= i < |users| && users[i].id == m
    decreases |users|
  {
    if |users| == 0 then 0
    else
      var rest := MaxId(users[1..]);
      assert forall i :: 1 <= i < |users| ==> users[i] == users[1..][i - 1];
      if users[0].id > rest then users[0].id else rest
  }

  /** `addUser`: refused when a name is missing or the generated address is
      taken; otherwise one user is appended with the next free id. */
  function AddUser(users: seq<User>, data: NewUser): (r: Change)
    ensures r == Refused(NameMissing) <==> data.firstName.None? || data.lastName.None?
    ensures r.Refused? && r.why.AlreadyExists? ==> HasEmail(users, r.why.email)
    ensures r.Refused? ==> r.why.NameMissing? || r.why.AlreadyExists?
    ensures data.firstName.Some? && data.lastName.Some? ==>
      (r.Applied? <==> !HasEmail(users, GenerateEmail(data.firstName.value, data.lastName.value)))
    ensures r.Applied? ==>
      && |r.users| == |users| + 1
      && r.users[..|users|] == users
      && !HasEmail(users, r.users[|users|].email)
      && (forall i :: 0 <= i < |users| ==> users[i].id < r.users[|users|].id)
      && r.users[|users|].role == data.role
      && r.users[|users|].status == data.status
    ensures r.Applied? ==>
      && r.users[|users|].email == GenerateEmail(data.firstName.value, data.lastName.value)
      && r.users[|users|].name == data.firstName.value + " " + data.lastName.value
      && r.users[|users|].id == MaxId(users) + 1
      && r.users[|users|].firstName == data.firstName
      && r.users[|users|].lastName == data.lastName
      && r.users[|users|].cases == data.cases
  {
    match (data.firstName, data.lastName)
    case (Some(first), Some(last)) =>
      var email := GenerateEmail(first, last);
      if Find((u: User) => u.email == email, users).Some? then
        Refused(AlreadyExists(email))
      else
        var newUser := User(
          MaxId(users) + 1, Some(first), Some(last), first + " " + last, email,
          data.role, data.status, data.cases);
        assert (users + [newUser])[..|users|] == users;
        Applied(users + [newUser])
    case _ => Refused(NameMissing)
  }

  /** `addUser` keeps ids and e-mail addresses unique. */
  lemma AddUserKeepsUniqueness(users: seq<User>, data: NewUser)
    requires UniqueIds(users) && UniqueEmails(users)
    ensures AddUser(users, data).Applied? ==>
      UniqueIds(AddUser(users, data).users) && UniqueEmails(AddUser(users, data).users)
  {
    var r := AddUser(users, data);
    if r.Applied? {
      var n := |users|;
      assert forall i :: 0 <= i < n ==> r.users[i] == users[i];
    }
  }

  /** A second `addUser` with the same names is refused. */
  lemma AddUserTwiceIsRefused(users: seq<User>, data: NewUser)
    requires AddUser(users, data).Applied?
    ensures AddUser(AddUser(users, data).users, data).Refused?
  {
    var us := AddUser(users, data).users;
    assert us[|users|].email == GenerateEmail(data.firstName.value, data.lastName.value);
  }

  /** `updateUser`: every user with the updated user's id is replaced. */
  function UpdateUser(users: seq<User>, updated: User): (r: seq<User>)
    ensures |r| == |users|
    ensures forall i :: 0 <= i < |users| ==>
      r[i] == (if users[i].id == updated.id then updated else users[i])
  {
    Map((u: User) => if u.id == updated.id then updated else u, users)
  }

  /** With unique ids, after `updateUser` looking the id up finds the new
      record, and the update is a no-op when the id is absent. */
  lemma UpdateUserThenFind(users: seq<User>, updated: User)
    requires UniqueIds(users)
    ensures (exists i :: 0 <= i < |users| && users[i].id == updated.id) ==>
      Find((u: User) => u.id == updated.id, UpdateUser(users, updated)) == Some(updated)
    ensures (forall i :: 0 <= i < |users| ==> users[i].id != updated.id) ==>
      UpdateUser(users, updated) == users
    ensures UniqueIds(UpdateUser(users, updated))
  {
  }

  /** `deleteUser`: refused unless the current user's address is exactly the
      super-admin's; otherwise every user with that id is removed. */
  function DeleteUser(users: seq<User>, current: Option<User>, userId: int): (r: Change)
    ensures r.Refused? <==> current.None? || !IsAdmin(current.value.email)
    ensures r.Refused? ==> r.why == PermissionDenied
    ensures r.Applied? ==>
      && IsSubsequence(r.users, users)
      && (forall i :: 0 <= i < |r.users| ==> r.users[i].id != userId)
      && (forall i :: 0 <= i < |users| ==> (users[i] in r.users <==> users[i].id != userId))
      && (forall u | u in multiset(users) :: multiset(r.users)[u] == if u.id != userId then multiset(users)[u] else 0)
  {
    if current.None? || !IsAdmin(current.value.email) then Refused(PermissionDenied)
    else
      var p := (u: User) => u.id != userId;
      FilterIsSubsequence(p, users);
      FilterMultiplicity(p, users);
      Applied(Filter(p, users))
  }

  /** Deleting an id nobody has changes nothing; deleting twice is deleting once. */
  lemma DeleteUserAbsentAndTwice(users: seq<User>, current: Option<User>, userId: int)
    requires DeleteUser(users, current, userId).Applied?
    ensures (forall i :: 0 <= i < |users| ==> users[i].id != userId) ==>
      DeleteUser(users, current, userId).users == users
    ensures DeleteUser(DeleteUser(users, current, userId).users, current, userId)
      == DeleteUser(users, current, userId)
  {
    var p := (u: User) => u.id != userId;
    if forall i :: 0 <= i < |users| ==> users[i].id != userId {
      FilterAll(p, users);
    }
    FilterIdempotent(p, users);
  }

  /** The status the toggle switches to. */
  function Flip(s: UserStatus): UserStatus {
    if s == Active then Inactive else Active
  }

  /** `toggleUserStatus`: flips Active and Inactive for the users with that id. */
  function ToggleUserStatus(users: seq<User>, userId: int): (r: seq<User>)
    ensures |r| == |users|
    ensures forall i :: 0 <= i < |users| ==>
      (r[i].status != users[i].status <==> users[i].id == userId)
    ensures forall i :: 0 <= i < |users| ==> r[i].(status := users[i].status) == users[i]
  {
    Map((u: User) => if u.id == userId then u.(status := Flip(u.status)) else u, users)
  }

  /** Toggling the same id twice restores the list. */
  lemma ToggleTwiceRestores(users: seq<User>, userId: int)
    ensures ToggleUserStatus(ToggleUserStatus(users, userId), userId) == users
  {
  }

  /** `getUserCases`: the cases of the first user with that id, or empty
      when there is no such user or the user has none. */
  function GetUserCases(users: seq<User>, userId: int): (r: seq<Case>)
    ensures (forall i :: 0 <= i < |users| ==> users[i].id != userId) ==> r == []
    ensures forall i ::
      (0 <= i < |users| && users[i].id == userId && forall j :: 0 <= j < i ==> users[j].id != userId)
      ==> r == users[i].cases.GetOr([])
  {
    match Find((u: User) => u.id == userId, users)
    case None => []
    case Some(u) => u.cases.GetOr([])
  }

  /** Replace every case with `caseData`'s id by `caseData`. */
  function ReplaceCase(cs: seq<Case>, caseData: Case): (r: seq<Case>)
    ensures |r| == |cs|
    ensures forall i :: 0 <= i < |cs| ==> r[i] == (if cs[i].id == caseData.id then caseData else cs[i])
  {
    Map((c: Case) => if c.id == caseData.id then caseData else c, cs)
  }

  /** The user holds a case with that id (`user.cases && user.cases.some(...)`). */
  predicate Holds(u: User, caseId: int) {
    u.cases.Some? && exists j :: 0 <= j < |u.cases.value| && u.cases.value[j].id == caseId
  }

  /** `updateCase`: the case is replaced by id in the global list and in the
      case list of every user holding it. */
  function UpdateCase(store: Store, caseData: Case): (r: Store)
    ensures r.cases == ReplaceCase(store.cases, caseData)
    ensures |r.users| == |store.users|
    ensures forall i :: 0 <= i < |store.users| && !Holds(store.users[i], caseData.id) ==>
      r.users[i] == store.users[i]
    ensures forall i :: 0 <= i < |store.users| && Holds(store.users[i], caseData.id) ==>
      r.users[i] == store.users[i].(cases := Some(ReplaceCase(store.users[i].cases.value, caseData)))
  {
    var users := Map(
      (u: User) => if Holds(u, caseData.id) then u.(cases := Some(ReplaceCase(u.cases.value, caseData))) else u,
      store.users);
    Store(users, ReplaceCase(store.cases, caseData))
  }

  /** After `updateCase` every copy of the case, in the global list and in
      any user's list, is the new data; every other case is untouched; the
      users and their order are unchanged apart from their case lists. */
  lemma UpdateCaseIsConsistent(store: Store, caseData: Case)
    ensures forall i :: 0 <= i < |store.cases| ==>
      UpdateCase(store, caseData).cases[i] ==
        (if store.cases[i].id == caseData.id then caseData else store.cases[i])
    ensures forall i, j ::
      (0 <= i < |store.users| && UpdateCase(store, caseData).users[i].cases.Some?
       && 0 <= j < |UpdateCase(store, caseData).users[i].cases.value|
       && UpdateCase(store, caseData).users[i].cases.value[j].id == caseData.id)
      ==> UpdateCase(store, caseData).users[i].cases.value[j] == caseData
    ensures forall i :: 0 <= i < |store.users| ==>
      UpdateCase(store, caseData).users[i].(cases := store.users[i].cases) == store.users[i]
  {
  }
}

=== FILE: user_types.dfy ===
/** Users and their cases (src/types/user.ts), with the optional case fields
    the user store and the case tabs actually read and write
    (src/contexts/UserContext.tsx), which the declared `UserCase` type lacks. */
module UserTypes {
  import opened Options
  import opened RolePermissions

  datatype CaseStatus = Open | InProgress | Closed

  /** The status as the string the source stores. */
  function CaseStatusName(s: CaseStatus): string {
    match s
    case Open => "Open"
    case InProgress => "In Progress"
    case Closed => "Closed"
  }

  datatype UserStatus = Active | Inactive

  /** A case assigned to a user. Every field after `assignedDate` is optional. */
  datatype Case = Case(
    id: int,
    title: string,
    status: CaseStatus,
    assignedDate: string,
    closedDate: Option<string>,
    assignedTo: Option<string>,
    actionsTaken: Option<string>,
    resolvedBy: Option<string>,
    resolution: Option<string>,
    escalatedTo: Option<string>,
    escalatedDate: Option<string>,
    escalationReason: Option<string>,
    reportedToAuthorities: Option<bool>,
    reportedTo: Option<string>,
    reportedDate: Option<string>,
    referenceNumber: Option<string>)

  /** A user account. `firstName` and `lastName` are stored by the user store
      although the declared type omits them; `cases` may be absent. */
  datatype User = User(
    id: int,
    firstName: Option<string>,
    lastName: Option<string>,
    name: string,
    email: string,
    role: Role,
    status: UserStatus,
    cases: Option<seq<Case>>)
}
